=== FILE: README.md ===
# Blog pagination and search, modelled in Dafny

This project models the client-side blog list of a driving-school web site.
That list has four parts:

- **The pagination widget** (`BlogPagination`). It counts the posts that are still displayed and splits them into pages of eight. It draws a strip of links: a previous arrow, up to five numbered links around the current page, and a next arrow. It displays only the posts of the current page.
- **The live search** (`BlogSearch`). It displays exactly the posts that contain the query and match the chosen category. It then recounts the pagination widget and sends it back to page 1.
- **The teaching script**. This has a page counter with a guarded `goToPageSafe`, infinite-scroll loading, and a `PaginationState` object that pages through search results.
- **The console guide**. Its arithmetic covers the page formula, `getPostsForPage` and `paginationCalculator`.

Posts are positions in a `Dom.BlogDocument`. The document holds each post's text and a `display` array of flags. `display[i]` says whether post `i` is not hidden (its `style.display` is not `"none"`). The document also records whether the "no results" box is shown.

Lists of posts, such as `filteredBlogPosts` and `filteredItems`, are sequences of positions. The objects the scripts mutate are classes whose methods write `display` in loops, as the scripts do. The computations are functions, and what the scripts promise is proved as `ensures` clauses and lemmas.

The modules follow the files:

| module | file |
|---|---|
| `JsNumber`, `JsString`, `JsArray` | the JavaScript built-ins used: `Math.ceil` on whole numbers, `parseInt`, `toString`, `toLowerCase`, `trim`, `includes`, `slice`, `filter` |
| `Dom` | the posts of the page and their display flags |
| `Paginator` | js/blog-pagination.js |
| `Search` | js/blog-search.js |
| `PaginationGuide` | js/simple-pagination-example.js |
| `ConsoleTest` | pagination-console-test.js |

## Model

| member | source | states |
|---|---|---|
| JsNumber.CeilDiv | js/blog-pagination.js:89 | `Math.ceil(n / k)` for whole numbers: the least r with n <= r * k, i.e. n <= r * k < n + k |
| JsNumber.ParseInt | js/blog-pagination.js:124 | `parseInt` gives NaN (None) exactly when no digit follows the optional sign; otherwise the value of the leading digits |
| JsNumber.NumberToString | js/blog-pagination.js:218 | `i.toString()` of a page number is a non-empty string of decimal digits, with a leading 0 only for the number 0 |
| JsNumber.NumberToStringRoundTrip | js/blog-pagination.js:235 | the page number written into `data-page` (as its decimal string) parses back to the same number |
| JsString.Lower | js/blog-search.js:91 | `toLowerCase` keeps the length, turns each upper-case letter into its own lower-case letter, and keeps every other character in place |
| JsString.LowerIdempotent | js/blog-search.js:125 | lower-casing an already lower-cased text changes nothing |
| JsString.Trim | js/blog-search.js:86 | `trim` gives the stretch s[a..b] of the input with only white space before a and from b on, neither end of it white space; the result is empty exactly when the input is all white space |
| JsString.Includes | js/blog-search.js:92 | `includes` holds exactly when the pattern occurs at some position of the text |
| JsString.EmptyIncluded | js/blog-search.js:92 | the empty query occurs in every text |
| JsArray.Slice | js/blog-pagination.js:305-308 | `slice(start, end)` with JavaScript's clamping and negative indices is never longer than the list |
| JsArray.SliceWindow | js/blog-pagination.js:297-308 | for non-negative bounds the slice is the list's elements from start up to end, cut off at the list's end |
| JsArray.Filter | js/blog-pagination.js:62-64 | `filter` keeps exactly the elements satisfying the predicate, each as many times as it occurs in the input, and drops every other element |
| JsArray.FilterIsSubsequence | js/blog-pagination.js:62-64 | what `filter` keeps stays in its original order: a subsequence of the input |
| Paginator.Positions | js/blog-pagination.js:62-64 | the displayed posts in document order: a position is kept exactly when its post is displayed, and the positions strictly increase |
| Paginator.PageView | js/blog-pagination.js:278-308 | the posts `updateBlogDisplay` leaves displayed are filtered posts, never more than there are, and at most eight when there are several pages |
| Paginator.PageViewContents | js/blog-pagination.js:297-308 | with several pages, page c shows filtered posts (c-1)*8 up to min(c*8, n): eight on each page before the last, one to eight on the last |
| Paginator.SinglePageViewIsFiltered | js/blog-pagination.js:278-289 | with at most one page every filtered post is displayed |
| Paginator.Window | js/blog-pagination.js:185-203 | for every current page and page count, the window starts at page 1 or later, ends at totalPages or earlier, and spans at most five pages |
| Paginator.WindowBounds | js/blog-pagination.js:185-203 | 1 <= startPage <= currentPage <= endPage <= totalPages, and the window is min(5, totalPages) pages wide |
| Paginator.WindowPlacement | js/blog-pagination.js:189-203 | the current page is centred away from the ends; near either end the window is the first or the last five pages |
| Paginator.WindowExamples | js/blog-pagination.js:183-203 | page 10 of 12 shows 8..12, page 9 of 10 shows 6..10, page 1 of 3 shows 1..3 |
| Paginator.NumberLinks | js/blog-pagination.js:216-220 | one numbered link per page from first to last; each link's page lies in that range, and a link is active exactly when its page is the current page |
| Paginator.AppendNumberLinks | js/blog-pagination.js:216-220 | the loop appends one numbered link per page of the window, the current page's link active |
| Paginator.Strip | js/blog-pagination.js:208-228 | at most seven links (two arrows and five numbers); none with at most one page; every numbered link targets a page in [1, totalPages] |
| Paginator.StripParts | js/blog-pagination.js:208-228 | the strip is the optional previous arrow, then the numbered window, then the optional next arrow |
| Paginator.StripTargets | js/blog-pagination.js:208-228 | every link targets a page in [1, totalPages]; previous targets c-1, next targets c+1; a link is active exactly when it is the number of the current page |
| Paginator.StripArrows | js/blog-pagination.js:208-228 | the previous arrow is drawn exactly when c > 1, the next arrow exactly when c < totalPages |
| Paginator.StripOneActive | js/blog-pagination.js:216-220 | exactly one link of the strip is active |
| Paginator.NoStripForOnePage | js/blog-pagination.js:173-178 | with at most one page no link is drawn |
| Paginator.ClickTarget | js/blog-pagination.js:118-129 | a click leads somewhere only from a non-empty `data-page`; the target is that text's `parseInt` value, and it is neither 0 nor the current page |
| Paginator.ClickOnStripLink | js/blog-pagination.js:114-130 | clicking a strip link asks to go to its page, except the active link, which asks for nothing |
| Paginator.FilterBlogPosts | js/blog-pagination.js:342-374 | the result is a subsequence of the input; a post is kept exactly when it is in the category ("all" keeps every post) and its lower-cased text holds the lower-cased query (an empty query keeps every post) |
| Paginator.FilterEverything | js/blog-pagination.js:342-374 | category "all" with an empty query gives the input back unchanged |
| Paginator.CategoryKeywords | js/blog-pagination.js:349-358 | every keyword of the table is non-empty, so it cannot match every text on its own |
| Paginator.FilterUnknownCategory | js/blog-pagination.js:358-359 | a category without keywords keeps no post |
| Paginator.BlogPagination.constructor | js/blog-pagination.js:7-25 | after creation the displayed posts are counted, the no-results box is shown exactly when there are none, the page is 1, the info line, strip and container visibility are drawn for page 1, and only page 1's posts are displayed |
| Paginator.BlogPagination.CountBlogPosts | js/blog-pagination.js:40-99 | filteredBlogPosts becomes the displayed posts, totalItems their number, totalPages its ceiling over 8; the no-results box is shown exactly when nothing is displayed |
| Paginator.BlogPagination.GoToPage | js/blog-pagination.js:136-144 | a page outside [1, totalPages] changes nothing; otherwise it becomes current, the info line, strip and container visibility are redrawn, and exactly its posts are displayed |
| Paginator.BlogPagination.Click | js/blog-pagination.js:114-130 | a click goes to the parsed `data-page` only when it is non-zero, differs from the current page and is in range, redrawing the info line, strip and page; otherwise nothing changes |
| Paginator.BlogPagination.UpdatePagination | js/blog-pagination.js:146-229 | the info line, the strip of links for the current page, and the container shown exactly when there are several pages |
| Paginator.BlogPagination.UpdateBlogDisplay | js/blog-pagination.js:272-340 | exactly the posts of the current page are displayed, and every other post is hidden |
| Paginator.BlogPagination.UpdateTotalPages | js/blog-pagination.js:376-380 | the totals are replaced, the page count recomputed, and the info line, strip and container visibility redrawn |
| Search.Lookup | js/blog-search.js:172 | a table lookup finds a matcher exactly when some entry carries the category's name |
| Search.LookupFirst | js/blog-search.js:172 | the lookup returns the matcher of the first entry with that name |
| Search.MatchesCategory | js/blog-search.js:121-174 | category "all" matches every post |
| Search.UnknownCategory | js/blog-search.js:172-173 | exactly the six listed categories have a matcher; any other category except "all" matches no post |
| Search.TeenDriverExcluded | js/blog-search.js:138-153 | a post mentioning "teen driver" is neither a test-preparation nor a licensing post |
| Search.TeenDriverSafetyIsSafetyOnly | js/blog-search.js:138-160 | a post mentioning "teen driver safety" is a safety post, and neither a test-preparation nor a licensing post |
| Search.InsuranceSimplified | js/blog-search.js:162-165 | a post is an insurance post exactly when it mentions "new driver insurance", or both "insurance" and "save money" |
| Search.MatchesCategoryIgnoresCase | js/blog-search.js:125 | the category test gives the same answer for a text and its lower-cased form |
| Search.SearchQuery | js/blog-search.js:86 | the query is lower-case; it is empty exactly when there is no search box or the box holds only white space |
| Search.SearchFlags | js/blog-search.js:90-101 | one display flag per post; `SearchFlagsAt` states what each flag is |
| Search.SearchFlagsAt | js/blog-search.js:90-101 | post i is marked displayed exactly when it contains the query (or the query is empty) and matches the category |
| Search.EmptySearchShowsAll | js/blog-search.js:86-101 | an empty query with category "all" displays every post |
| Search.CountStep | js/blog-search.js:95-97 | the count of displayed posts grows by one exactly when the next post is displayed |
| Search.SearchThenFirstPage | js/blog-search.js:113-118 | after a search with pagination, the displayed posts are the first eight matches, in order |
| Search.BlogSearch.constructor | js/blog-search.js:7-22 | the category starts at "all"; listeners are bound exactly when there is a search form or a search box |
| Search.BlogSearch.PerformSearch | js/blog-search.js:85-119 | posts are displayed exactly when they match, and the count is the number displayed; an instance with neither search form nor box touches no post and counts zero; without a widget the no-results box is shown exactly when the count is zero; a widget is recounted from the visibility, put back on page 1 with info line and strip redrawn, and displays page 1 |
| Search.BlogSearch.RefreshPagination | js/blog-search.js:113-118 | the widget's filtered posts become the displayed posts; it goes back to page 1, redraws its info line, strip and container visibility, and displays page 1; the no-results box is shown exactly when nothing was displayed |
| Search.BlogSearch.ShowMatching | js/blog-search.js:90-101 | the loop writes each post's display flag from the match test and counts the displayed posts |
| Search.BlogSearch.TypeQuery | js/blog-search.js:39-43 | typing into the search box reruns the search with the new value, with everything performSearch promises: the matching posts, their count, the no-results box and the widget's page 1; the current category and the widget's own query and category fields are left alone |
| Search.BlogSearch.SelectCategory | js/blog-search.js:53-82 | choosing a category makes it current and reruns the search, with everything performSearch promises; the widget's own query and category fields are left alone; without bound listeners the count is 0 and nothing changes: not the category, the display, the no-results box or the widget |
| PaginationGuide.TotalPages | js/simple-pagination-example.js:26-31 | no pages exactly when there are no posts; otherwise the least number of eight-post pages that holds them |
| PaginationGuide.TotalPagesIsCeiling | js/simple-pagination-example.js:26-31 | the empty-list guard agrees with the plain ceiling |
| PaginationGuide.TwentyTwoPostsLayout | js/simple-pagination-example.js:432-436 | 22 posts make 3 pages holding posts 0-7, 8-15 and 16-21; every post is on exactly one page |
| PaginationGuide.ClampPage | js/simple-pagination-example.js:66-74 | a page below 1 becomes 1, one above totalPages becomes totalPages, one in range is kept; with no pages the result is 0 |
| PaginationGuide.ClampPageIdempotent | js/simple-pagination-example.js:66-74 | clamping a clamped page changes nothing |
| PaginationGuide.ShownPage | js/simple-pagination-example.js:34-49 | the flags showPage leaves when it completes: exactly the posts of the page, and none for a NaN page |
| PaginationGuide.GoToPageSafeAsWritten | js/simple-pagination-example.js:57-85 | as written: only a non-number is rejected; a number is clamped, the current page kept, any other page stored and shown, and page 0 of an empty blog throws; NaN is stored and hides every post |
| PaginationGuide.GoToPageSafeAcceptsNaN | js/simple-pagination-example.js:61-84 | on page 1 of 3 with page 1 displayed, goToPageSafe(NaN) reports success, leaves the current page NaN and changes what is displayed |
| PaginationGuide.Guide.constructor | js/simple-pagination-example.js:361-380 | the script starts on page 1, not loading, with more pages to come, and its load handler leaves exactly page 1's posts displayed |
| PaginationGuide.Guide.ShowPage | js/simple-pagination-example.js:34-49 | from page 1 on, exactly the posts with index in [(p-1)*8, p*8) are displayed; a page below 1 hides everything and throws |
| PaginationGuide.Guide.GoToPageSafe | js/simple-pagination-example.js:57-85 | a non-number returns false and changes nothing; a number is clamped; staying on the page changes nothing; otherwise the clamped page becomes current and is shown |
| PaginationGuide.Guide.LoadNextPage | js/simple-pagination-example.js:326-353 | on or past the last page only hasMorePages is cleared; otherwise the next page's posts are shown as well, hiding none, and pages 1..k shown before means pages 1..k+1 shown after |
| PaginationGuide.SearchResults | js/simple-pagination-example.js:135-143 | the results are drawn from the items and are never more than the items; `SearchResultsMeaning` states which items they are |
| PaginationGuide.SearchResultsMeaning | js/simple-pagination-example.js:135-143 | a blank query keeps every item; any other query keeps, in order, exactly the items whose lower-cased text holds the lower-cased query |
| PaginationGuide.LoopPage | js/simple-pagination-example.js:175-177 | the results the loop walks over are the page getPostsForPage cuts out |
| PaginationGuide.PaginationState.constructor | js/simple-pagination-example.js:373-374 | after the load handler, every post is an item and a result; the fields keep the initial values of the object literal at js/simple-pagination-example.js:94-100: page 1, no query, sort order "default", itemsPerPage the constant 8 |
| PaginationGuide.PaginationState.Reset | js/simple-pagination-example.js:103-106 | back to page 1 with the results equal to all items |
| PaginationGuide.PaginationState.GetInfo | js/simple-pagination-example.js:109-122 | the page count holds every result; from page 1 to the last page, the page's range is non-empty and at most eight wide; the item count is negative exactly when the page starts after the last result; past the last page it is zero or below |
| PaginationGuide.PaginationState.GetInfoIsCalculator | js/simple-pagination-example.js:109-121 | getInfo gives the same numbers as the console guide's paginationCalculator |
| PaginationGuide.PaginationState.ShowFilteredPage | js/simple-pagination-example.js:163-178 | exactly the results of the page are displayed, the same ones getPostsForPage returns; a page below 1 hides everything and throws |
| PaginationGuide.PaginationState.SearchAndPaginate | js/simple-pagination-example.js:131-161 | the results become the search's results, the page goes back to 1, the query is recorded, and the first eight results are displayed |
| ConsoleTest.CalculatePageRange | pagination-console-test.js:52-56 | a page's range is exactly itemsPerPage indices wide |
| ConsoleTest.PageRangeExamples | pagination-console-test.js:58-60 | pages 1, 2, 3 of eight are {0,8}, {8,16}, {16,24} |
| ConsoleTest.PageRangesContiguous | pagination-console-test.js:52-56 | each page ends where the next begins |
| ConsoleTest.PageOfIndex | pagination-console-test.js:52-56 | index i lies on page p exactly when p = i / n + 1: the pages cover the indices without gap or overlap |
| ConsoleTest.GetPostsForPage | pagination-console-test.js:79-83 | at most eight posts; from page 1 on, post k of the page is post (p-1)*8+k of the list, and the page holds eight posts or what is left |
| ConsoleTest.GetPostsBeforeFirstPage | pagination-console-test.js:79-83 | page 0 is empty, and a page before it counts back from the end of the list |
| ConsoleTest.FirstPagesArePrefix | pagination-console-test.js:79-87 | pages 1..k together are the first k*8 posts |
| ConsoleTest.PagesCoverAll | pagination-console-test.js:73-87 | pages 1..ceil(n/8) hold every post exactly once, in order |
| ConsoleTest.PageCountExamples | pagination-console-test.js:13-16 | 22 posts need 3 pages, 16 need 2, 7 need 1 |
| ConsoleTest.TwentyTwoPosts | pagination-console-test.js:70-87 | 22 posts make 3 pages of posts 0-7, 8-15 and 16-21, and the last page holds 6 |
| ConsoleTest.PaginationCalculator | pagination-console-test.js:140-165 | the page count holds every item; the end index never passes the last item; no page holds more than itemsPerPage |
| ConsoleTest.CalculatorItemsOnPage | pagination-console-test.js:140-165 | from page 1 to the last page, 1..n items; n on every page but the last; the remainder on the last; none past the end |
| ConsoleTest.CalculatorMatchesSlice | pagination-console-test.js:140-165 | the calculator's item count is the length of the page getPostsForPage returns |
| ConsoleTest.WidgetShowsPostsForPage | pagination-console-test.js:79-83 | with several pages, the blog widget displays on page c exactly what getPostsForPage returns for page c |
| ConsoleTest.WorkedAnswers | pagination-console-test.js:119-173 | 50 posts at 12 per page need 5 pages; page 3 at 10 starts at 20; page 5 at 15 shows 60..74; the calculator's results for its example call and its two suggested calls |

## Left out

- Browser plumbing is not modelled: `querySelector`, element creation, `innerHTML`, ARIA attributes, hover colours, `scrollToBlogPosts`/`scrollIntoView`, the fade-in opacity and its `setTimeout` stagger. A post is its text and a displayed flag.
- URL handling is not modelled: `parseSearchParams`, `initURLPagination`, `updateURL` and the `popstate` listener. The widget starts with an empty query and category "all", as it does without URL parameters.
- `debounce`, `calculateVisibleRange` (pixel geometry and floating-point division), `createAccessiblePaginationButton`, `goToPageAndAnnounce`, `setupEventListeners` and the infinite-scroll listener `initInfiniteScroll` are not modelled.
- The `DOMContentLoaded` handlers are not modelled. The constructors describe the state after them, and `findAllPosts` becomes the document the objects are given.
- `showNoResultsMessage` and `hideNoResultsMessage` are not modelled in their DOM detail. Their effect is one flag in the document; in the teaching script they only log, so that flag is not touched.
- Which element fired a click is not modelled. A click is its `data-page` value, or none when the target is not a link.
- JsNumber.ParseInt: only decimal digits after an optional sign are modelled. Leading white space, `0x` prefixes and radix detection are not, because page links only ever hold `toString` output.
- Paginator.BlogPagination.UpdatePagination: the page is taken to have the `.blog-pagination` container and the `.pagination-info` line. Without the container the source returns before drawing anything; that branch is not modelled.
- Paginator.BlogPagination.Click: `parseInt` is modelled for decimal digits with an optional sign. Leading white space, `0x` prefixes and radix detection are not modelled, because page links only ever hold `toString` output.
- JsString.Lower: only ASCII letters are lowered; other Unicode case mappings are not modelled.
- Search.Lookup: names that a plain object inherits from `Object.prototype` (such as `"toString"`) are treated as unknown categories. In the source they find an inherited function.
- Paginator.FilterBlogPosts: likewise, an inherited name used as a category would throw when `.some` is called; the model keeps no post for it.
- ConsoleTest.PaginationCalculator: requires itemsPerPage > 0. With 0, JavaScript divides by zero into Infinity or NaN, which whole numbers cannot represent.
- PaginationGuide.Guide.GoToPageSafe: a numeric argument is a whole number. Fractions and ±Infinity are not modelled; NaN is handled as the corrected behaviour below.
- PaginationGuide.SearchResultsMeaning: the query is a string. A `null` or `undefined` query, which the source also treats as blank, is not modelled.
- PaginationGuide.Guide.LoadNextPage: the guard and the timer callback run as one step. The 500 ms delay and anything that interleaves with it are not modelled.
- PaginationGuide.Guide.ShowPage: the TypeError thrown when a page below 1 reads a post at a negative index ends the method with `ok` false, after every post was hidden.
- `sortOrder` of `PaginationState` is kept but never used, as in the source.
- Search.BlogSearch.ShowMatching, Search.BlogSearch.RefreshPagination and Paginator.AppendNumberLinks are steps of `performSearch` and `updatePagination` given names of their own. The category table is passed to `matchesCategory` as a field holding `categoryMatchers`, rather than being rebuilt on every call.
- server.js, payment-handler.php, stripe-webhook.php, purgecss.config.js and chatbot-knowledge-base/convert_json_to_jsonl_format.py are not part of this model. They are payment, e-mail, configuration and data-conversion code outside the blog list.

## Findings

| source | as written | input that shows it | evidently intended | confidence | as-written member | corrected member |
|---|---|---|---|---|---|---|
| js/simple-pagination-example.js:61-81 | `goToPageSafe` rejects only values whose `typeof` is not `"number"`. NaN passes: it fails both clamping comparisons, differs from `currentPage`, and is stored as the current page; `showPage(NaN)` then hides every post, and the call returns true | `goToPageSafe(NaN)` on page 1 of 3, e.g. `goToPageSafe(parseInt("next"))` | NaN is rejected like any other non-number, and `currentPage` stays a page in range | not executed | PaginationGuide.GoToPageSafeAsWritten, PaginationGuide.GoToPageSafeAcceptsNaN | PaginationGuide.Guide.GoToPageSafe |

=== FILE: blog_pagination.dfy ===
/**
 * The blog list's pagination widget (class BlogPagination): it collects the
 * posts the search left displayed, splits them into pages of eight, draws a
 * strip of at most five numbered page links between a previous and a next
 * arrow, and displays only the posts of the current page.
 */
module Paginator {
  import opened JsNumber
  import opened JsString
  import opened JsArray
  import opened Dom

  const ItemsPerPage: nat := 8
  const MaxVisiblePages: nat := 5

  predicate StrictlyIncreasing(s: seq<nat>)
  {
    forall i, j :: 0 <= i < j < |s| ==> s[i] < s[j]
  }

  /**
   * The positions of the displayed posts, in document order: what
   * `allBlogPosts.filter(post => post.style.display !== "none")` keeps.
   */
  function Positions(display: seq<bool>): (r: seq<nat>)
    ensures forall i: nat {:trigger i in r} :: i in r <==> i < |display| && display[i]
    ensures StrictlyIncreasing(r)
    ensures |r| <= |display|
  {
    if display == [] then []
    else
      var last := |display| - 1;
      var front := Positions(display[..last]);
      forall k | 0 <= k < |front|
        ensures front[k] < last
      {
        assert front[k] in front;
      }
      front + (if display[last] then [last] else [])
  }

  /** The posts `updateBlogDisplay` leaves displayed. */
  function PageView(filtered: seq<nat>, currentPage: int, totalPages: int): (r: seq<nat>)
    ensures |r| <= |filtered| && forall p :: p in r ==> p in filtered
    ensures totalPages > 1 ==> |r| <= ItemsPerPage
  {
    if totalPages <= 1 then filtered
    else
      var startIndex := (currentPage - 1) * ItemsPerPage;
      Slice(filtered, startIndex, startIndex + ItemsPerPage)
  }

  /**
   * With several pages, page c shows the c-th run of eight filtered posts:
   * eight on every page but the last, and between one and eight on the last.
   */
  lemma PageViewContents(filtered: seq<nat>, c: int, totalPages: nat)
    requires totalPages == CeilDiv(|filtered|, ItemsPerPage) && totalPages > 1
    requires 1 <= c <= totalPages
    ensures PageView(filtered, c, totalPages)
         == filtered[(c - 1) * ItemsPerPage..Min(c * ItemsPerPage, |filtered|)]
    ensures 1 <= |PageView(filtered, c, totalPages)| <= ItemsPerPage
    ensures c < totalPages ==> |PageView(filtered, c, totalPages)| == ItemsPerPage
  {
    SliceWindow(filtered, (c - 1) * ItemsPerPage, (c - 1) * ItemsPerPage + ItemsPerPage);
  }

  /** With at most one page every filtered post is displayed. */
  lemma SinglePageViewIsFiltered(filtered: seq<nat>, c: int, totalPages: nat)
    requires totalPages <= 1
    ensures PageView(filtered, c, totalPages) == filtered
  {}

  /** The first and last page numbers of the strip (updatePagination, step 3). */
  function Window(currentPage: int, totalPages: int): (r: (int, int))
    ensures 1 <= r.0 && r.1 <= totalPages
    ensures r.1 - r.0 < MaxVisiblePages
  {
    var startPage := Max(1, currentPage - MaxVisiblePages / 2);
    var endPage := Min(totalPages, startPage + MaxVisiblePages - 1);
    if endPage - startPage + 1 < MaxVisiblePages then (Max(1, endPage - MaxVisiblePages + 1), endPage)
    else (startPage, endPage)
  }

  /**
   * The window holds the current page, stays inside [1, totalPages] and is
   * min(5, totalPages) pages wide.
   */
  lemma WindowBounds(currentPage: int, totalPages: int)
    requires totalPages > 1 && 1 <= currentPage <= totalPages
    ensures 1 <= Window(currentPage, totalPages).0 <= currentPage
    ensures currentPage <= Window(currentPage, totalPages).1 <= totalPages
    ensures Window(currentPage, totalPages).1 - Window(currentPage, totalPages).0 + 1
         == Min(MaxVisiblePages, totalPages)
  {}

  /**
   * Away from the ends the current page sits in the middle of the window;
   * near the last page the window is the last five pages, near the first
   * page the first five.
   */
  lemma WindowPlacement(currentPage: int, totalPages: int)
    requires totalPages >= MaxVisiblePages && 1 <= currentPage <= totalPages
    ensures 3 <= currentPage <= totalPages - 2 ==> Window(currentPage, totalPages) == (currentPage - 2, currentPage + 2)
    ensures currentPage > totalPages - 2 ==> Window(currentPage, totalPages) == (totalPages - 4, totalPages)
    ensures currentPage < 3 ==> Window(currentPage, totalPages) == (1, 5)
  {}

  /** Page 10 of 12 shows pages 8 to 12; page 9 of 10 shows pages 6 to 10. */
  lemma WindowExamples()
    ensures Window(10, 12) == (8, 12)
    ensures Window(9, 10) == (6, 10)
    ensures Window(1, 3) == (1, 3)
  {}

  datatype Kind = Previous | Number | Next

  /** A pagination link: its text ("‹", the page number or "›"), its `data-page` and whether it is the active one. */
  datatype Link = Link(kind: Kind, page: int, active: bool)

  /** The text of `.pagination-info`. */
  datatype Info = PageOf(currentPage: int, totalPages: int, totalItems: int) | NoPostsFound

  lemma NumberLinksSnoc(first: int, last: int, currentPage: int)
    requires first <= last + 1
    ensures NumberLinks(first, last + 1, currentPage)
         == NumberLinks(first, last, currentPage) + [Link(Number, last + 1, last + 1 == currentPage)]
  {}

  /** Numbered links for pages first..last, the current one active. */
  function NumberLinks(first: int, last: int, currentPage: int): (r: seq<Link>)
    ensures |r| == Max(0, last - first + 1)
    ensures forall l :: l in r ==> l.kind == Number && first <= l.page <= last && (l.active <==> l.page == currentPage)
  {
    seq(Max(0, last - first + 1), k => Link(Number, first + k, first + k == currentPage))
  }

  /** The links `updatePagination` puts into the `.blog-pagination` container. */
  function Strip(currentPage: int, totalPages: int): (r: seq<Link>)
    ensures |r| <= MaxVisiblePages + 2
    ensures totalPages <= 1 ==> r == []
    ensures forall l :: l in r ==> l.kind == Number ==> 1 <= l.page <= totalPages
  {
    if totalPages <= 1 then []
    else
      var (startPage, endPage) := Window(currentPage, totalPages);
      (if currentPage > 1 then [Link(Previous, currentPage - 1, false)] else [])
      + NumberLinks(startPage, endPage, currentPage)
      + (if currentPage < totalPages then [Link(Next, currentPage + 1, false)] else [])
  }

  lemma StripAssembled(c: int, totalPages: int, startPage: int, endPage: int)
    requires totalPages > 1 && (startPage, endPage) == Window(c, totalPages)
    ensures Strip(c, totalPages)
         == (if c > 1 then [Link(Previous, c - 1, false)] else [])
          + NumberLinks(startPage, endPage, c)
          + (if c < totalPages then [Link(Next, c + 1, false)] else [])
  {}

  /** The loop of updatePagination that appends one numbered link per page of the window. */
  method AppendNumberLinks(startPage: int, endPage: int, currentPage: int) returns (r: seq<Link>)
    requires startPage <= endPage + 1
    ensures r == NumberLinks(startPage, endPage, currentPage)
  {
    r := [];
    var i := startPage;
    while i <= endPage
      invariant startPage <= i <= endPage + 1
      invariant r == NumberLinks(startPage, i - 1, currentPage)
    {
      NumberLinksSnoc(startPage, i - 1, currentPage);
      r := r + [Link(Number, i, i == currentPage)];
      i := i + 1;
    }
  }

  predicate HasLink(links: seq<Link>, link: Link)
  {
    exists k :: 0 <= k < |links| && links[k] == link
  }

  /** The strip is the optional previous arrow, the numbered window, and the optional next arrow. */
  lemma StripParts(c: int, totalPages: int)
    requires totalPages > 1 && 1 <= c <= totalPages
    ensures var prev := if c > 1 then [Link(Previous, c - 1, false)] else [];
            var numbers := NumberLinks(Window(c, totalPages).0, Window(c, totalPages).1, c);
            var r := Strip(c, totalPages);
            && |r| == |prev| + |numbers| + (if c < totalPages then 1 else 0)
            && (forall k :: 0 <= k < |prev| ==> r[k] == prev[k])
            && (forall k :: 0 <= k < |numbers| ==> r[|prev| + k] == numbers[k])
            && (c < totalPages ==> r[|r| - 1] == Link(Next, c + 1, false))
  {
  }

  /**
   * Every link of the strip on page c of several targets a real page; the
   * arrows target c - 1 and c + 1; the active link is exactly the numbered
   * link of the current page.
   */
  lemma StripTargets(c: int, totalPages: int)
    requires totalPages > 1 && 1 <= c <= totalPages
    ensures forall k :: 0 <= k < |Strip(c, totalPages)| ==>
      var link := Strip(c, totalPages)[k];
      && 1 <= link.page <= totalPages
      && (link.kind == Previous ==> link.page == c - 1)
      && (link.kind == Next ==> link.page == c + 1)
      && (link.active <==> link.kind == Number && link.page == c)
  {
    WindowBounds(c, totalPages);
    StripParts(c, totalPages);
    var r := Strip(c, totalPages);
    var p := if c > 1 then 1 else 0;
    var (s, e) := Window(c, totalPages);
    forall k | 0 <= k < |r|
      ensures 1 <= r[k].page <= totalPages
      ensures r[k].kind == Previous ==> r[k].page == c - 1
      ensures r[k].kind == Next ==> r[k].page == c + 1
      ensures r[k].active <==> r[k].kind == Number && r[k].page == c
    {
      if k < p {
      } else if k < p + (e - s + 1) {
        assert r[k] == NumberLinks(s, e, c)[k - p];
      } else {
        assert k == |r| - 1;
      }
    }
  }

  /** The previous arrow is drawn exactly when c > 1, the next arrow exactly when c < totalPages. */
  lemma StripArrows(c: int, totalPages: int)
    requires totalPages > 1 && 1 <= c <= totalPages
    ensures HasLink(Strip(c, totalPages), Link(Previous, c - 1, false)) <==> c > 1
    ensures HasLink(Strip(c, totalPages), Link(Next, c + 1, false)) <==> c < totalPages
  {
    StripParts(c, totalPages);
    StripTargets(c, totalPages);
    var r := Strip(c, totalPages);
    if c > 1 {
      assert r[0] == Link(Previous, c - 1, false);
    }
    if c < totalPages {
      assert r[|r| - 1] == Link(Next, c + 1, false);
    }
  }

  /** An active link of the strip is a numbered link: the (j - p)-th of the window, p being the arrow count before it. */
  lemma ActiveLinkIsNumbered(c: int, totalPages: int, j: int)
    requires totalPages > 1 && 1 <= c <= totalPages
    requires 0 <= j < |Strip(c, totalPages)| && Strip(c, totalPages)[j].active
    ensures var p := if c > 1 then 1 else 0;
            && p <= j < p + Window(c, totalPages).1 - Window(c, totalPages).0 + 1
            && Strip(c, totalPages)[j].page == Window(c, totalPages).0 + (j - p)
  {
    StripParts(c, totalPages);
    var r := Strip(c, totalPages);
    var p := if c > 1 then 1 else 0;
    var (st, e) := Window(c, totalPages);
    var numbers := NumberLinks(st, e, c);
    WindowBounds(c, totalPages);
    if j < p {
      assert false;
    } else if j >= p + |numbers| {
      assert false;
    } else {
      assert r[j] == numbers[j - p];
    }
  }

  /** Exactly one link of the strip is active. */
  lemma StripOneActive(c: int, totalPages: int)
    requires totalPages > 1 && 1 <= c <= totalPages
    ensures exists k :: 0 <= k < |Strip(c, totalPages)| && Strip(c, totalPages)[k].active
    ensures forall j, k | 0 <= j < |Strip(c, totalPages)| && 0 <= k < |Strip(c, totalPages)| ::
      (Strip(c, totalPages)[j].active && Strip(c, totalPages)[k].active) ==> j == k
  {
    WindowBounds(c, totalPages);
    StripParts(c, totalPages);
    StripTargets(c, totalPages);
    var r := Strip(c, totalPages);
    var p := if c > 1 then 1 else 0;
    var (s, e) := Window(c, totalPages);
    assert r[p + (c - s)] == NumberLinks(s, e, c)[c - s];
    assert r[p + (c - s)].active;
    forall j, k | 0 <= j < |r| && 0 <= k < |r| && r[j].active && r[k].active
      ensures j == k
    {
      ActiveLinkIsNumbered(c, totalPages, j);
      ActiveLinkIsNumbered(c, totalPages, k);
    }
  }

  /** With at most one page the strip is empty. */
  lemma NoStripForOnePage(c: int, totalPages: int)
    requires totalPages <= 1
    ensures Strip(c, totalPages) == []
  {}

  /** The `data-page` value a click leads `goToPage` to, if any (the click handler of bindEvents). */
  function ClickTarget(dataPage: Option<string>, currentPage: int): (r: Option<int>)
    ensures r.Some? ==> dataPage.Some? && dataPage.value != "" && ParseInt(dataPage.value) == r
    ensures r.Some? ==> r.value != 0 && r.value != currentPage
  {
    match dataPage
    case None => None
    case Some(text) =>
      if text == "" then None
      else
        match ParseInt(text)
        case None => None
        case Some(page) => if page != 0 && page != currentPage then Some(page) else None
  }

  /**
   * Clicking a link of the strip asks for its page, unless it is the active
   * link, which asks for nothing: its `data-page` text reads back as the
   * number it was written from.
   */
  lemma ClickOnStripLink(c: int, totalPages: int, k: int)
    requires totalPages > 1 && 1 <= c <= totalPages
    requires 0 <= k < |Strip(c, totalPages)|
    ensures 1 <= Strip(c, totalPages)[k].page <= totalPages
    ensures ClickTarget(Some(NumberToString(Strip(c, totalPages)[k].page)), c)
         == if Strip(c, totalPages)[k].active then None else Some(Strip(c, totalPages)[k].page)
  {
    StripTargets(c, totalPages);
    var link := Strip(c, totalPages)[k];
    NumberToStringRoundTrip(link.page);
    if !link.active {
      assert link.page != c by {
        if link.kind == Number {
        }
      }
    }
  }

  /** `keywords.some(keyword => text.includes(keyword))`. */
  predicate AnyIncluded(text: string, keywords: seq<string>)
  {
    exists k :: 0 <= k < |keywords| && Includes(text, keywords[k])
  }

  /** The keyword table of filterBlogPosts; an unknown category has none. */
  function CategoryKeywords(category: string): (r: seq<string>)
    ensures forall k :: 0 <= k < |r| ==> r[k] != ""
  {
    if category == "driving-tips" then
      ["driving tips", "road test", "g2", "g test", "parallel park", "defensive driving"]
    else if category == "test-preparation" then
      ["g1", "g2", "g test", "road test", "driving test", "exam", "examiner"]
    else if category == "licensing" then
      ["license", "licensing", "g1", "g2", "g", "graduated", "mto"]
    else if category == "safety" then
      ["safety", "emergency", "winter driving", "night driving", "defensive"]
    else if category == "insurance" then
      ["insurance", "premium", "coverage", "policy"]
    else if category == "maintenance" then
      ["maintenance", "vehicle", "car care", "oil change", "tire"]
    else []
  }

  predicate InCategory(texts: seq<string>, category: string, p: nat)
  {
    p < |texts| && AnyIncluded(Lower(texts[p]), CategoryKeywords(category))
  }

  predicate HasQuery(texts: seq<string>, query: string, p: nat)
  {
    p < |texts| && Includes(Lower(texts[p]), Lower(query))
  }

  /**
   * `filterBlogPosts(posts, query, category)`: the posts of the category
   * ("all" keeps every post) whose lower-cased text contains the lower-cased
   * query (an empty query keeps every post), in their original order.
   */
  function FilterBlogPosts(texts: seq<string>, posts: seq<nat>, query: string, category: string): (r: seq<nat>)
    ensures IsSubsequence(r, posts)
    ensures forall p :: p in r <==>
      p in posts && (category == "all" || InCategory(texts, category, p))
                 && (query == "" || HasQuery(texts, query, p))
  {
    var byCategory := if category != "all" then Filter(posts, p => InCategory(texts, category, p)) else posts;
    var r := if query != "" then Filter(byCategory, p => HasQuery(texts, query, p)) else byCategory;
    assert IsSubsequence(r, posts) by {
      if category != "all" && query != "" {
        FilterFilter(posts, p => InCategory(texts, category, p), p => HasQuery(texts, query, p),
                     p => InCategory(texts, category, p) && HasQuery(texts, query, p));
        FilterIsSubsequence(posts, p => InCategory(texts, category, p) && HasQuery(texts, query, p));
      } else if category != "all" {
        FilterIsSubsequence(posts, p => InCategory(texts, category, p));
      } else if query != "" {
        FilterIsSubsequence(posts, p => HasQuery(texts, query, p));
      } else {
        SubsequenceReflexive(posts);
      }
    }
    r
  }

  lemma {:induction false} SubsequenceReflexive(s: seq<nat>)
    ensures IsSubsequence(s, s)
  {
    if s != [] {
      SubsequenceReflexive(s[1..]);
    }
  }

  /** With category "all" and an empty query the list comes back unchanged. */
  lemma FilterEverything(texts: seq<string>, posts: seq<nat>)
    ensures FilterBlogPosts(texts, posts, "", "all") == posts
  {}

  /** A category outside the keyword table keeps no post at all. */
  lemma FilterUnknownCategory(texts: seq<string>, posts: seq<nat>, query: string, category: string)
    requires category != "all" && CategoryKeywords(category) == []
    ensures FilterBlogPosts(texts, posts, query, category) == []
  {
    var inCategory := p => InCategory(texts, category, p);
    FilterNone(posts, inCategory);
  }

  class BlogPagination {
    var currentPage: int
    var totalItems: nat
    var totalPages: nat
    const doc: BlogDocument
    /** The displayed posts when they were last counted, by position. */
    var filteredBlogPosts: seq<nat>
    var searchQuery: string
    var currentCategory: string
    /** The children of the `.blog-pagination` container. */
    var links: seq<Link>
    /** Whether that container is displayed. */
    var linksShown: bool
    var info: Info

    ghost predicate Valid()
      reads this
    {
      && doc.Valid()
      && 1 <= currentPage
      && totalPages == CeilDiv(totalItems, ItemsPerPage)
      && (forall p :: p in filteredBlogPosts ==> p < doc.display.Length)
    }

    /**
     * What updatePagination draws: the info line, the strip of links for the
     * current page, and the container displayed exactly when there are
     * several pages.
     */
    ghost predicate Drawn()
      reads this
    {
      && info == (if totalPages > 0 then PageOf(currentPage, totalPages, totalItems) else NoPostsFound)
      && links == Strip(currentPage, totalPages)
      && (linksShown <==> totalPages > 1)
    }

    /** `new BlogPagination()` on a loaded page: count, draw the strip, display page 1. */
    constructor (doc: BlogDocument)
      requires doc.Valid()
      modifies doc, doc.display
      ensures Valid() && this.doc == doc
      ensures filteredBlogPosts == Positions(old(doc.display[..]))
      ensures currentPage == 1 && totalItems == |filteredBlogPosts|
      ensures doc.noResultsShown <==> filteredBlogPosts == []
      ensures Drawn()
      ensures ShowsExactly(doc.display[..], PageView(filteredBlogPosts, 1, totalPages))
      ensures searchQuery == "" && currentCategory == "all"
    {
      currentPage := 1;
      totalItems := 0;
      totalPages := 0;
      this.doc := doc;
      filteredBlogPosts := [];
      searchQuery := "";
      currentCategory := "all";
      links := [];
      linksShown := false;
      info := NoPostsFound;
      new;
      CountBlogPosts();
      UpdatePagination();
      UpdateBlogDisplay();
    }

    /**
     * countBlogPosts: the displayed posts become the filtered list, the
     * totals are recomputed, and the no-results box is displayed exactly when
     * nothing is left.
     */
    method CountBlogPosts()
      requires Valid()
      modifies this`filteredBlogPosts, this`totalItems, this`totalPages, doc`noResultsShown
      ensures Valid()
      ensures filteredBlogPosts == Positions(doc.display[..])
      ensures totalItems == |filteredBlogPosts| && totalPages == CeilDiv(totalItems, ItemsPerPage)
      ensures doc.noResultsShown <==> filteredBlogPosts == []
    {
      filteredBlogPosts := Positions(doc.display[..]);
      if |filteredBlogPosts| == 0 {
        doc.noResultsShown := true;
      } else {
        doc.noResultsShown := false;
      }
      totalItems := |filteredBlogPosts|;
      totalPages := CeilDiv(totalItems, ItemsPerPage);
    }

    /** goToPage: a page outside [1, totalPages] is ignored; otherwise it becomes current and is drawn. */
    method GoToPage(page: int)
      requires Valid()
      modifies this`currentPage, this`links, this`linksShown, this`info, doc.display
      ensures Valid()
      ensures 1 <= page <= totalPages ==>
        && currentPage == page
        && Drawn()
        && ShowsExactly(doc.display[..], PageView(filteredBlogPosts, page, totalPages))
      ensures !(1 <= page <= totalPages) ==>
        && currentPage == old(currentPage) && links == old(links)
        && linksShown == old(linksShown) && info == old(info)
        && unchanged(doc.display)
    {
      if page < 1 || page > totalPages {
        return;
      }
      currentPage := page;
      UpdatePagination();
      UpdateBlogDisplay();
    }

    /**
     * The click handler of bindEvents: a link's `data-page`, once parsed, is
     * followed when it is a non-zero number other than the current page.
     */
    method Click(dataPage: Option<string>)
      requires Valid()
      modifies this`currentPage, this`links, this`linksShown, this`info, doc.display
      ensures Valid()
      ensures var target := ClickTarget(dataPage, old(currentPage));
        if target.Some? && 1 <= target.value <= totalPages then
          && currentPage == target.value
          && Drawn()
          && ShowsExactly(doc.display[..], PageView(filteredBlogPosts, currentPage, totalPages))
        else
          && currentPage == old(currentPage) && links == old(links)
          && linksShown == old(linksShown) && info == old(info)
          && unchanged(doc.display)
    {
      if dataPage.Some? && dataPage.value != "" {
        var parsed := ParseInt(dataPage.value);
        if parsed.Some? && parsed.value != 0 && parsed.value != currentPage {
          GoToPage(parsed.value);
        }
      }
    }

    /** updatePagination: the info line, and the strip of links, hidden when there is at most one page. */
    method UpdatePagination()
      requires Valid()
      modifies this`links, this`linksShown, this`info
      ensures Valid()
      ensures Drawn()
    {
      var c, t := currentPage, totalPages;
      if t <= 1 {
        info := if t > 0 then PageOf(c, t, totalItems) else NoPostsFound;
        links := [];
        linksShown := false;
        return;
      }

      var startPage := Max(1, c - MaxVisiblePages / 2);
      var endPage := Min(t, startPage + MaxVisiblePages - 1);
      if endPage - startPage + 1 < MaxVisiblePages {
        startPage := Max(1, endPage - MaxVisiblePages + 1);
      }
      assert (startPage, endPage) == Window(c, t);

      // The container is emptied and refilled; the new children are collected first.
      var strip: seq<Link> := if c > 1 then [Link(Previous, c - 1, false)] else [];
      var prev := strip;
      var numbers := AppendNumberLinks(startPage, endPage, c);
      strip := prev + numbers;
      strip := strip + if c < t then [Link(Next, c + 1, false)] else [];
      StripAssembled(c, t, startPage, endPage);
      info := PageOf(c, t, totalItems);
      links := strip;
      linksShown := true;
    }

    /**
     * updateBlogDisplay: with at most one page every filtered post is
     * displayed; otherwise exactly the current page's slice of them. Every
     * other post is hidden.
     */
    method UpdateBlogDisplay()
      requires Valid()
      modifies doc.display
      ensures ShowsExactly(doc.display[..], PageView(filteredBlogPosts, currentPage, totalPages))
    {
      var display := doc.display;
      if totalPages <= 1 {
        for i := 0 to display.Length
          invariant forall k :: 0 <= k < i ==> (display[k] <==> k in filteredBlogPosts)
        {
          display[i] := i in filteredBlogPosts;
        }
        return;
      }

      var startIndex := (currentPage - 1) * ItemsPerPage;
      var endIndex := startIndex + ItemsPerPage;
      var currentPagePosts := Slice(filteredBlogPosts, startIndex, endIndex);
      SliceWindow(filteredBlogPosts, startIndex, endIndex);

      for i := 0 to display.Length
        invariant forall k :: 0 <= k < i ==> !display[k]
      {
        display[i] := false;
      }
      for j := 0 to |currentPagePosts|
        invariant forall k :: 0 <= k < display.Length ==> (display[k] <==> k in currentPagePosts[..j])
      {
        assert currentPagePosts[j] in filteredBlogPosts;
        display[currentPagePosts[j]] := true;
        assert currentPagePosts[..j + 1] == currentPagePosts[..j] + [currentPagePosts[j]];
      }
      assert currentPagePosts[..|currentPagePosts|] == currentPagePosts;
    }

    /** updateTotalPages: new totals, strip redrawn; the current page is kept as it is. */
    method UpdateTotalPages(totalItems: nat)
      requires Valid()
      modifies this`totalItems, this`totalPages, this`links, this`linksShown, this`info
      ensures Valid()
      ensures this.totalItems == totalItems && totalPages == CeilDiv(totalItems, ItemsPerPage)
      ensures Drawn()
    {
      this.totalItems := totalItems;
      totalPages := CeilDiv(totalItems, ItemsPerPage);
      UpdatePagination();
    }
  }
}

=== FILE: blog_search.dfy ===
/**
 * The blog's live search (class BlogSearch): a query typed into the search
 * box and a category picked from the filter decide which posts stay
 * displayed; the pagination widget, when there is one, is then recounted
 * from the new visibility and sent back to page 1.
 */
module Search {
  import opened JsNumber
  import opened JsString
  import opened JsArray
  import opened Dom
  import opened Paginator

  /**
   * A matcher of the category table: a boolean combination of substring
   * tests on the lower-cased post text.
   */
  datatype Pattern =
    | Has(keyword: string)
    | Not(p: Pattern)
    | AllOf(ps: seq<Pattern>)
    | AnyOf(ps: seq<Pattern>)

  /** Whether the text satisfies the pattern; `AllOf` and `AnyOf` are `&&` and `||` over their parts. */
  function Eval(p: Pattern, t: string): bool
    decreases p
  {
    match p
    case Has(keyword) => Includes(t, keyword)
    case Not(q) => !Eval(q, t)
    case AllOf(ps) => forall i | 0 <= i < |ps| :: Eval(ps[i], t)
    case AnyOf(ps) => exists i | 0 <= i < |ps| :: Eval(ps[i], t)
  }

  const TeenDriver := "teen driver"
  /** "teen driver safety", spelled so that its first two words are visibly TeenDriver. */
  const TeenDriverSafety := TeenDriver + " safety"
  const Insurance := "insurance"
  /** "new driver insurance", spelled so that its last word is visibly Insurance. */
  const NewDriverInsurance := "new driver " + Insurance

  /** The `categoryMatchers` table of matchesCategory: category names and their matchers. */
  const CategoryMatchers: seq<(string, Pattern)> := [
    ("driving-tips",
      AnyOf([Has("parallel park"), Has("defensive driving"), Has("roundabout"), Has("highway merging"), Has("top 5 tips")])),
    ("test-preparation",
      AllOf([
        AnyOf([
          AllOf([Has("g2"), AnyOf([Has("pass"), Has("test"), Has("exam")])]),
          AllOf([Has("g test"), Has("fail")]),
          Has("examination sheet"),
          Has("test routes"),
          AllOf([Has("g1"), Has("fail")])]),
        Not(Has(TeenDriver))])),
    ("licensing",
      AllOf([
        AnyOf([
          Has("licensing roadmap"),
          Has("graduated licensing"),
          AllOf([Has("g1"), Has("g2"), Has("complete")])]),
        Not(Has(TeenDriver))])),
    ("safety",
      AnyOf([Has(TeenDriverSafety), Has("emergency driving"), Has("winter driving safety"), Has("night driving safety")])),
    ("insurance",
      AllOf([Has(Insurance), AnyOf([Has("save money"), Has(NewDriverInsurance)])])),
    ("maintenance",
      AnyOf([Has("vehicle maintenance"), Has("car care")]))
  ]

  /** The matcher a table holds for a category, if any: `categoryMatchers[category]`. */
  function Lookup(table: seq<(string, Pattern)>, category: string): (r: Option<Pattern>)
    ensures r.Some? <==> exists k :: 0 <= k < |table| && table[k].0 == category
  {
    if table == [] then None
    else if table[0].0 == category then Some(table[0].1)
    else Lookup(table[1..], category)
  }

  /** A lookup finds the first entry with the category's name. */
  lemma {:induction false} LookupFirst(table: seq<(string, Pattern)>, category: string, k: nat)
    requires k < |table| && table[k].0 == category
    requires forall j :: 0 <= j < k ==> table[j].0 != category
    ensures Lookup(table, category) == Some(table[k].1)
  {
    if k > 0 {
      LookupFirst(table[1..], category, k - 1);
    }
  }

  /**
   * `matchesCategory(postText, category)` over a table of matchers: "all"
   * matches everything, a category of the table matches when the lower-cased
   * text satisfies its pattern, and any other category matches nothing.
   */
  function MatchesCategory(matchers: seq<(string, Pattern)>, postText: string, category: string): (b: bool)
    ensures category == "all" ==> b
  {
    if category == "all" then true
    else
      var matcher := Lookup(matchers, category);
      matcher.Some? && Eval(matcher.value, Lower(postText))
  }

  /** Exactly six categories have a matcher; any other category but "all" matches no post. */
  lemma UnknownCategory(postText: string, category: string)
    ensures Lookup(CategoryMatchers, category).Some? <==>
      category in {"driving-tips", "test-preparation", "licensing", "safety", "insurance", "maintenance"}
    ensures category != "all" && Lookup(CategoryMatchers, category).None? ==> !MatchesCategory(CategoryMatchers, postText, category)
  {
    var names := ["driving-tips", "test-preparation", "licensing", "safety", "insurance", "maintenance"];
    assert forall k :: 0 <= k < |CategoryMatchers| ==> CategoryMatchers[k].0 == names[k];
    assert category in {"driving-tips", "test-preparation", "licensing", "safety", "insurance", "maintenance"}
      <==> category in names;
    if category in names {
      var k :| 0 <= k < |names| && names[k] == category;
      assert CategoryMatchers[k].0 == category;
    }
  }

  /** A post about teen drivers is never a test-preparation or a licensing post. */
  lemma TeenDriverExcluded(postText: string)
    requires Includes(Lower(postText), TeenDriver)
    ensures !MatchesCategory(CategoryMatchers, postText, "test-preparation")
    ensures !MatchesCategory(CategoryMatchers, postText, "licensing")
  {
    var t := Lower(postText);
    var testPreparation := CategoryMatchers[1].1;
    LookupFirst(CategoryMatchers, "test-preparation", 1);
    assert !Eval(testPreparation.ps[1], t);
    var licensing := CategoryMatchers[2].1;
    LookupFirst(CategoryMatchers, "licensing", 2);
    assert !Eval(licensing.ps[1], t);
  }

  /** Both halves of a phrase that occurs occur too. */
  lemma IncludesHalves(text: string, front: string, back: string)
    requires Includes(text, front + back)
    ensures Includes(text, front) && Includes(text, back)
  {
    var phrase := front + back;
    assert phrase[..|front|] == front && phrase[|front|..] == back;
    IncludesSlice(phrase, 0, |front|);
    IncludesTransitive(text, phrase, front);
    IncludesSlice(phrase, |front|, |phrase|);
    IncludesTransitive(text, phrase, back);
  }

  /**
   * A post about teen driver safety is a safety post, and therefore neither
   * a test-preparation nor a licensing post.
   */
  lemma TeenDriverSafetyIsSafetyOnly(postText: string)
    requires Includes(Lower(postText), TeenDriverSafety)
    ensures MatchesCategory(CategoryMatchers, postText, "safety")
    ensures !MatchesCategory(CategoryMatchers, postText, "test-preparation")
    ensures !MatchesCategory(CategoryMatchers, postText, "licensing")
  {
    var t := Lower(postText);
    var safety := CategoryMatchers[3].1;
    LookupFirst(CategoryMatchers, "safety", 3);
    assert Eval(safety.ps[0], t);
    IncludesHalves(t, TeenDriver, " safety");
    TeenDriverExcluded(postText);
  }

  /**
   * The insurance matcher: a post mentioning "new driver insurance" always
   * qualifies; otherwise it needs both "insurance" and "save money".
   */
  lemma InsuranceSimplified(postText: string)
    ensures var t := Lower(postText);
      MatchesCategory(CategoryMatchers, postText, "insurance")
      <==> Includes(t, NewDriverInsurance) || (Includes(t, Insurance) && Includes(t, "save money"))
  {
    var t := Lower(postText);
    var insurance := CategoryMatchers[4].1;
    LookupFirst(CategoryMatchers, "insurance", 4);
    var phrases := insurance.ps[1];
    assert Eval(insurance, t) <==> Eval(insurance.ps[0], t) && Eval(phrases, t);
    assert Eval(phrases, t) <==> Eval(phrases.ps[0], t) || Eval(phrases.ps[1], t);
    if Includes(t, NewDriverInsurance) {
      IncludesHalves(t, "new driver ", Insurance);
    }
  }

  /** The matchers lower-case the text themselves, so upper or lower case makes no difference. */
  lemma MatchesCategoryIgnoresCase(postText: string, category: string)
    ensures MatchesCategory(CategoryMatchers, Lower(postText), category) == MatchesCategory(CategoryMatchers, postText, category)
  {
    LowerIdempotent(postText);
  }

  /**
   * The query performSearch uses: the search box's value trimmed and
   * lower-cased, or "" when the page has no search box. It is empty exactly
   * when the box holds nothing but white space.
   */
  function SearchQuery(hasSearchInput: bool, inputValue: string): (q: string)
    ensures IsLowerCase(q)
    ensures q == "" <==> !hasSearchInput || AllWhitespace(inputValue)
  {
    if hasSearchInput then Lower(Trim(inputValue)) else ""
  }

  /** Whether performSearch leaves a post displayed. */
  predicate PostMatches(matchers: seq<(string, Pattern)>, postText: string, query: string, category: string)
  {
    var t := Lower(postText);
    (query == "" || Includes(t, query)) && MatchesCategory(matchers, t, category)
  }

  /** The display flags performSearch writes, post by post. */
  function SearchFlags(matchers: seq<(string, Pattern)>, texts: seq<string>, query: string, category: string): (r: seq<bool>)
    ensures |r| == |texts|
  {
    if texts == [] then []
    else SearchFlags(matchers, texts[..|texts| - 1], query, category) + [PostMatches(matchers, texts[|texts| - 1], query, category)]
  }

  /** Post i's flag says whether it matches the query and the category. */
  lemma {:induction false} SearchFlagsAt(matchers: seq<(string, Pattern)>, texts: seq<string>, query: string, category: string, i: int)
    requires 0 <= i < |texts|
    ensures SearchFlags(matchers, texts, query, category)[i] == PostMatches(matchers, texts[i], query, category)
  {
    var n := |texts| - 1;
    if i < n {
      SearchFlagsAt(matchers, texts[..n], query, category, i);
    }
  }

  /** An empty query with category "all" displays every post. */
  lemma EmptySearchShowsAll(matchers: seq<(string, Pattern)>, texts: seq<string>)
    ensures Positions(SearchFlags(matchers, texts, "", "all")) == Range(|texts|)
  {
    var flags := SearchFlags(matchers, texts, "", "all");
    forall i | 0 <= i < |flags|
      ensures flags[i]
    {
      SearchFlagsAt(matchers, texts, "", "all", i);
    }
    PositionsOfAll(flags);
  }

  lemma {:induction false} PositionsOfAll(flags: seq<bool>)
    requires forall i :: 0 <= i < |flags| ==> flags[i]
    ensures Positions(flags) == Range(|flags|)
  {
    if flags != [] {
      PositionsOfAll(flags[..|flags| - 1]);
    }
  }

  /** Positions grows by one exactly when the next flag is set. */
  lemma PositionsSnoc(flags: seq<bool>, b: bool)
    ensures Positions(flags + [b]) == Positions(flags) + (if b then [|flags|] else [])
  {
    assert (flags + [b])[..|flags|] == flags;
  }

  /** Counting the displayed posts one more post along. */
  lemma CountStep(flags: seq<bool>, i: nat)
    requires i < |flags|
    ensures |Positions(flags[..i + 1])| == |Positions(flags[..i])| + (if flags[i] then 1 else 0)
  {
    assert flags[..i + 1] == flags[..i] + [flags[i]];
    PositionsSnoc(flags[..i], flags[i]);
  }

  /**
   * After a search with pagination, the displayed posts are the first
   * eight matches (all of them when there are at most eight), in order.
   */
  lemma SearchThenFirstPage(matches: seq<nat>)
    ensures var view := PageView(matches, 1, CeilDiv(|matches|, ItemsPerPage));
      view == matches[..Min(ItemsPerPage, |matches|)]
  {
    var t := CeilDiv(|matches|, ItemsPerPage);
    if t > 1 {
      PageViewContents(matches, 1, t);
    } else {
      assert |matches| <= ItemsPerPage;
      assert matches[..|matches|] == matches;
    }
  }

  class BlogSearch {
    const doc: BlogDocument
    /** Whether the page has a `.blog-search-input` box. */
    const hasSearchInput: bool
    /** Whether the listeners were bound: the page has a search form or a search box. */
    const bound: bool
    /** The search box's current value. */
    var inputValue: string
    var currentCategory: string
    /** The category table matchesCategory consults. */
    const categoryMatchers: seq<(string, Pattern)>
    /** `window.blogPaginationInstance`, if the pagination widget was created. */
    const pagination: BlogPagination?

    ghost predicate Valid()
      reads this, pagination
    {
      && doc.Valid()
      && (hasSearchInput ==> bound)
      && (pagination != null ==> pagination.doc == doc && pagination.Valid())
    }

    /**
     * The state performSearch leaves behind, given the display flags `shown`
     * its loop left and the count it returned. Without a pagination widget the
     * flags stay as they are and the no-results box is shown exactly when the
     * count is zero. With one, the widget holds the displayed posts, is back
     * on page 1 with its info line and strip redrawn, and displays page 1 of
     * them; the no-results box is shown exactly when none is displayed.
     */
    ghost predicate SearchOutcome(shown: seq<bool>, visibleCount: nat)
      reads this, doc, doc.display, pagination
    {
      if pagination == null then
        && doc.display[..] == shown
        && (doc.noResultsShown <==> visibleCount == 0)
      else
        var matches := Positions(shown);
        && pagination.filteredBlogPosts == matches
        && pagination.totalItems == |matches|
        && pagination.currentPage == 1
        && pagination.Drawn()
        && ShowsExactly(doc.display[..], PageView(matches, 1, pagination.totalPages))
        && (doc.noResultsShown <==> matches == [])
    }

    /** `new BlogSearch()`: the category starts at "all"; nothing is searched yet. */
    constructor (doc: BlogDocument, hasSearchForm: bool, hasSearchInput: bool, pagination: BlogPagination?)
      requires doc.Valid()
      requires pagination != null ==> pagination.Valid() && pagination.doc == doc
      ensures Valid()
      ensures this.doc == doc && this.pagination == pagination && this.hasSearchInput == hasSearchInput
      ensures bound <==> hasSearchForm || hasSearchInput
      ensures currentCategory == "all" && inputValue == ""
      ensures categoryMatchers == CategoryMatchers
    {
      categoryMatchers := CategoryMatchers;
      this.doc := doc;
      this.hasSearchInput := hasSearchInput;
      this.bound := hasSearchForm || hasSearchInput;
      this.pagination := pagination;
      inputValue := "";
      currentCategory := "all";
    }

    /**
     * performSearch: each post is displayed exactly when it contains the
     * query (an empty query matches everything) and matches the category, and
     * the number displayed is returned. An instance that found neither a
     * search form nor a search box never collected the posts: it displays and
     * hides nothing and counts zero. Then the pagination widget, if any, is
     * recounted from the visibility, put back on page 1 and redrawn.
     */
    method PerformSearch() returns (visibleCount: nat)
      requires Valid()
      modifies doc.display, doc, pagination
      ensures Valid()
      ensures bound ==>
        var flags := SearchFlags(categoryMatchers, doc.texts, SearchQuery(hasSearchInput, inputValue), currentCategory);
        visibleCount == |Positions(flags)| && SearchOutcome(flags, visibleCount)
      ensures !bound ==> visibleCount == 0 && SearchOutcome(old(doc.display[..]), visibleCount)
      ensures pagination != null ==>
        && pagination.searchQuery == old(pagination.searchQuery)
        && pagination.currentCategory == old(pagination.currentCategory)
    {
      var query := SearchQuery(hasSearchInput, inputValue);
      if bound {
        visibleCount := ShowMatching(query);
      } else {
        visibleCount := 0;
      }

      if visibleCount == 0 {
        doc.noResultsShown := true;
      } else {
        doc.noResultsShown := false;
      }

      if pagination != null {
        RefreshPagination();
      }
    }

    /**
     * The pagination update at the end of performSearch: the widget recounts
     * the posts the search left displayed, goes back to page 1 and redraws
     * its info line, its links and the page.
     */
    method RefreshPagination()
      requires Valid() && pagination != null
      modifies doc.display, doc, pagination
      ensures Valid()
      ensures SearchOutcome(old(doc.display[..]), 0)
      ensures pagination.searchQuery == old(pagination.searchQuery)
      ensures pagination.currentCategory == old(pagination.currentCategory)
    {
      pagination.CountBlogPosts();
      pagination.currentPage := 1;
      pagination.UpdatePagination();
      pagination.UpdateBlogDisplay();
    }

    /**
     * The `forEach` loop of performSearch: each post is displayed exactly when
     * it contains the query and matches the current category; the number of
     * displayed posts is counted.
     */
    method ShowMatching(query: string) returns (visibleCount: nat)
      requires doc.Valid()
      modifies doc.display
      ensures doc.display[..] == SearchFlags(categoryMatchers, doc.texts, query, currentCategory)
      ensures visibleCount == |Positions(doc.display[..])|
    {
      ghost var flags := SearchFlags(categoryMatchers, doc.texts, query, currentCategory);
      var display := doc.display;
      visibleCount := 0;
      for i := 0 to display.Length
        invariant forall k :: 0 <= k < i ==> display[k] == flags[k]
        invariant visibleCount == |Positions(flags[..i])|
      {
        var postText := Lower(doc.texts[i]);
        var matchesSearch := query == "" || Includes(postText, query);
        var matchesCategory := MatchesCategory(categoryMatchers, postText, currentCategory);
        SearchFlagsAt(categoryMatchers, doc.texts, query, currentCategory, i);
        CountStep(flags, i);
        if matchesSearch && matchesCategory {
          display[i] := true;
          visibleCount := visibleCount + 1;
        } else {
          display[i] := false;
        }
      }
      assert display[..] == flags;
      assert flags[..|flags|] == flags;
    }

    /** The search box's input listener: the new value is searched for at once. */
    method TypeQuery(value: string) returns (visibleCount: nat)
      requires Valid() && hasSearchInput
      modifies this`inputValue, doc.display, doc, pagination
      ensures Valid() && inputValue == value
      ensures var flags := SearchFlags(categoryMatchers, doc.texts, SearchQuery(true, value), currentCategory);
        visibleCount == |Positions(flags)| && SearchOutcome(flags, visibleCount)
      ensures currentCategory == old(currentCategory)
      ensures pagination != null ==>
        && pagination.searchQuery == old(pagination.searchQuery)
        && pagination.currentCategory == old(pagination.currentCategory)
    {
      inputValue := value;
      visibleCount := PerformSearch();
    }

    /**
     * The category select's change listener and the category buttons' click
     * listener: the chosen category becomes current and the search is rerun.
     * Without bound listeners nothing happens.
     */
    method SelectCategory(category: string) returns (visibleCount: nat)
      requires Valid()
      modifies this`currentCategory, doc.display, doc, pagination
      ensures Valid()
      ensures !bound ==>
        && visibleCount == 0 && currentCategory == old(currentCategory)
        && unchanged(doc) && unchanged(doc.display)
        && (pagination != null ==> unchanged(pagination))
      ensures bound ==>
        var flags := SearchFlags(categoryMatchers, doc.texts, SearchQuery(hasSearchInput, inputValue), category);
        && currentCategory == category
        && visibleCount == |Positions(flags)|
        && SearchOutcome(flags, visibleCount)
      ensures pagination != null ==>
        && pagination.searchQuery == old(pagination.searchQuery)
        && pagination.currentCategory == old(pagination.currentCategory)
    {
      visibleCount := 0;
      if !bound {
        return;
      }
      currentCategory := category;
      visibleCount := PerformSearch();
    }
  }
}

=== FILE: dom.dfy ===
/**
 * The part of the blog page that the pagination and search scripts read and
 * write. Each `.blog-content .blog-post` element is identified by its
 * position in document order; the scripts only ever read its text and read
 * or write whether it is displayed.
 */
module Dom {

  /** Post i is displayed exactly when i is one of view's entries. */
  predicate ShowsExactly(display: seq<bool>, view: seq<nat>)
  {
    forall i :: 0 <= i < |display| ==> (display[i] <==> i in view)
  }

  class BlogDocument {
    /** The `textContent` of each post. */
    const texts: seq<string>
    /** `display[i]` holds when post i's `style.display` is not "none". */
    const display: array<bool>
    /** Whether the shared `.no-results-message` box is displayed. */
    var noResultsShown: bool

    /** Every post has a display flag. */
    ghost predicate Valid()
    {
      display.Length == |texts|
    }

    /**
     * The page as the HTML delivers it: each post's text, whether it starts
     * displayed, and whether the no-results box starts displayed.
     */
    constructor (texts: seq<string>, shown: seq<bool>, noResultsShown: bool)
      requires |shown| == |texts|
      ensures Valid() && this.texts == texts && fresh(display)
      ensures display[..] == shown && this.noResultsShown == noResultsShown
    {
      this.texts := texts;
      display := new bool[|texts|](i requires 0 <= i < |texts| => shown[i]);
      this.noResultsShown := noResultsShown;
    }
  }
}

=== FILE: js_array.dfy ===
/**
 * The JavaScript array operations the pagination scripts use:
 * `Array.prototype.slice` (with its negative and out-of-range arguments) and
 * `Array.prototype.filter`, together with the subsequence relation that
 * says what a filter may return.
 */
module JsArray {
  import opened JsNumber

  /** The indices 0, 1, ..., n-1: a node list of n elements, by position. */
  function Range(n: nat): (r: seq<nat>)
    ensures |r| == n && forall i :: 0 <= i < n ==> r[i] == i
  {
    seq(n, i => i)
  }

  /**
   * Where a `slice` argument lands in a list of length len: a negative k
   * counts back from the end, and the result is clamped to [0, len].
   */
  function SliceIndex(k: int, len: nat): (r: nat)
    ensures r <= len
    ensures 0 <= k ==> r == Min(k, len)
    ensures k < 0 ==> r == Max(len + k, 0)
  {
    if k < 0 then Max(len + k, 0) else Min(k, len)
  }

  /** `s.slice(start, end)`. */
  function Slice<T>(s: seq<T>, start: int, end: int): (r: seq<T>)
    ensures |r| <= |s|
    ensures forall x :: x in r ==> x in s
  {
    var from := SliceIndex(start, |s|);
    var to := SliceIndex(end, |s|);
    if from < to then s[from..to] else []
  }

  /**
   * For a non-negative window, `slice` is the part of [start, end) that lies
   * inside the list: element k of the result is element start + k of s.
   */
  lemma SliceWindow<T>(s: seq<T>, start: int, end: int)
    requires 0 <= start <= end
    ensures Slice(s, start, end) == s[Min(start, |s|)..Min(end, |s|)]
    ensures |Slice(s, start, end)| == Max(0, Min(end, |s|) - start)
    ensures forall k :: 0 <= k < |Slice(s, start, end)| ==> Slice(s, start, end)[k] == s[start + k]
  {}

  /**
   * `s.filter(p)`: the elements of s that satisfy p, in their order in s,
   * each kept as many times as it occurs in s.
   */
  function Filter<T(!new)>(s: seq<T>, p: T -> bool): (r: seq<T>)
    ensures |r| <= |s|
    ensures forall x :: x in r <==> x in s && p(x)
    ensures forall x :: multiset(r)[x] == if p(x) then multiset(s)[x] else 0
  {
    if s == [] then []
    else
      var rest := Filter(s[1..], p);
      assert s == [s[0]] + s[1..];
      assert forall x :: x in s <==> x == s[0] || x in s[1..];
      if p(s[0]) then [s[0]] + rest else rest
  }

  /**
   * a is a subsequence of b: a can be obtained from b by deleting elements,
   * without reordering the others. Matching each element of a with its
   * earliest occurrence in b decides it.
   */
  predicate IsSubsequence<T(==)>(a: seq<T>, b: seq<T>)
    decreases |b|
  {
    if a == [] then true
    else if b == [] then false
    else if a[0] == b[0] then IsSubsequence(a[1..], b[1..])
    else IsSubsequence(a, b[1..])
  }

  /** What `filter` returns is a subsequence of its input. */
  lemma {:induction false} FilterIsSubsequence<T(!new)>(s: seq<T>, p: T -> bool)
    ensures IsSubsequence(Filter(s, p), s)
  {
    if s != [] {
      FilterIsSubsequence(s[1..], p);
      var rest := Filter(s[1..], p);
      if !p(s[0]) && rest != [] {
        assert rest[0] in rest;
      }
    }
  }

  /** A filter no element passes returns nothing. */
  lemma {:induction false} FilterNone<T(!new)>(s: seq<T>, p: T -> bool)
    requires forall x :: x in s ==> !p(x)
    ensures Filter(s, p) == []
  {
    if s != [] {
      assert s[0] in s;
      assert forall x :: x in s[1..] ==> x in s;
      FilterNone(s[1..], p);
    }
  }

  /** Filtering twice is filtering once by both predicates. */
  lemma {:induction false} FilterFilter<T(!new)>(s: seq<T>, p: T -> bool, q: T -> bool, both: T -> bool)
    requires forall x :: both(x) == (p(x) && q(x))
    ensures Filter(Filter(s, p), q) == Filter(s, both)
  {
    if s != [] {
      FilterFilter(s[1..], p, q, both);
      if p(s[0]) {
        assert ([s[0]] + Filter(s[1..], p))[1..] == Filter(s[1..], p);
      }
    }
  }
}

=== FILE: js_number.dfy ===
/**
 * The few pieces of JavaScript number semantics the pagination scripts rely on:
 * `Math.ceil(n / k)` for page counts, `String(n)` for the `data-page`
 * attribute of a pagination link, and `parseInt` for reading it back.
 * Numbers are modelled as unbounded integers.
 */
module JsNumber {

  datatype Option<T> = None | Some(value: T)

  function Min(a: int, b: int): int { if a <= b then a else b }
  function Max(a: int, b: int): int { if a >= b then a else b }

  /** `Math.ceil(n / k)`: the least number of k-sized pages holding n items. */
  function CeilDiv(n: nat, k: nat): (r: nat)
    requires k > 0
    ensures n <= r * k < n + k
  {
    var r := (n + k - 1) / k;
    assert (n + k - 1) == r * k + (n + k - 1) % k;
    r
  }

  /** No smaller page count holds n items, so `CeilDiv` is the ceiling and nothing else. */
  lemma {:induction false} CeilDivLeast(n: nat, k: nat, m: nat)
    requires k > 0 && n <= m * k
    ensures CeilDiv(n, k) <= m
  {
    var r := CeilDiv(n, k);
    if r > m {
      assert (r - 1) * k >= m * k by {
        assert r - 1 >= m;
        MulMonotone(m, r - 1, k);
      }
      assert false;
    }
  }

  /** A count r with (r - 1) * k < n <= r * k is the ceiling of n / k. */
  lemma CeilDivExact(n: nat, k: nat, r: nat)
    requires k > 0 && n <= r * k && (r == 0 || (r - 1) * k < n)
    ensures CeilDiv(n, k) == r
  {
    CeilDivLeast(n, k, r);
    var c := CeilDiv(n, k);
    if c < r {
      MulMonotone(c, r - 1, k);
    }
  }

  lemma MulMonotone(a: int, b: int, k: nat)
    requires a <= b
    ensures a * k <= b * k
  {
    assert b * k - a * k == (b - a) * k;
  }

  predicate IsDigit(c: char) { '0' <= c <= '9' }

  function DigitValue(c: char): nat
    requires IsDigit(c)
  {
    c as int - '0' as int
  }

  function DigitChar(d: nat): char
    requires d < 10
  {
    (d + '0' as int) as char
  }

  predicate AllDigits(s: string) { forall i :: 0 <= i < |s| ==> IsDigit(s[i]) }

  /** The decimal value of a string of digits, read left to right. */
  function DigitsValue(s: string): nat
    requires AllDigits(s)
  {
    if s == [] then 0 else DigitsValue(s[..|s| - 1]) * 10 + DigitValue(s[|s| - 1])
  }

  /** The length of the longest prefix of `s` made of decimal digits. */
  function DigitPrefixLength(s: string): (k: nat)
    ensures k <= |s|
    ensures forall i :: 0 <= i < k ==> IsDigit(s[i])
    ensures k < |s| ==> !IsDigit(s[k])
  {
    if s == [] || !IsDigit(s[0]) then 0 else 1 + DigitPrefixLength(s[1..])
  }

  /**
   * `parseInt(s)` in base 10: an optional sign, then the longest run of
   * decimal digits; `None` stands for `NaN` (no digit at all).
   */
  function ParseInt(s: string): (r: Option<int>)
    ensures r.None? <==> DigitPrefixLength(SignFree(s)) == 0
  {
    var rest := SignFree(s);
    var k := DigitPrefixLength(rest);
    var magnitude: int := if k == 0 then 0 else DigitsValue(rest[..k]);
    if k == 0 then None
    else if |s| > 0 && s[0] == '-' then Some(-magnitude)
    else Some(magnitude)
  }

  /** The text after a leading '+' or '-', if there is one. */
  function SignFree(s: string): (r: string)
    ensures r == s || (|s| > 0 && (s[0] == '-' || s[0] == '+') && r == s[1..])
  {
    if |s| > 0 && (s[0] == '-' || s[0] == '+') then s[1..] else s
  }

  /** `String(n)` for a non-negative integer: its decimal digits, no leading zero. */
  function NumberToString(n: nat): (s: string)
    ensures |s| > 0 && AllDigits(s)
    ensures s[0] == '0' ==> n == 0
  {
    if n < 10 then [DigitChar(n)] else NumberToString(n / 10) + [DigitChar(n % 10)]
  }

  lemma {:induction false} NumberToStringValue(n: nat)
    ensures DigitsValue(NumberToString(n)) == n
  {
    var s := NumberToString(n);
    if n >= 10 {
      NumberToStringValue(n / 10);
      assert s[..|s| - 1] == NumberToString(n / 10);
    }
  }

  /** Reading back the text `String(n)` with `parseInt` gives n again. */
  lemma NumberToStringRoundTrip(n: nat)
    ensures ParseInt(NumberToString(n)) == Some(n)
  {
    var s := NumberToString(n);
    assert SignFree(s) == s;
    assert DigitPrefixLength(s) == |s| by { DigitPrefixOfDigits(s); }
    assert s[..|s|] == s;
    NumberToStringValue(n);
  }

  lemma {:induction false} DigitPrefixOfDigits(s: string)
    requires AllDigits(s)
    ensures DigitPrefixLength(s) == |s|
  {
    if s != [] {
      DigitPrefixOfDigits(s[1..]);
    }
  }
}

=== FILE: js_string.dfy ===
/**
 * The JavaScript string operations the search code uses: `toLowerCase`,
 * `trim` and `includes`. Strings are sequences of characters; lower-casing
 * is restricted to the ASCII letters.
 */
module JsString {

  predicate IsUpper(c: char) { 'A' <= c <= 'Z' }

  /** The lower-case letter of an upper-case ASCII letter: the same letter, 32 code points on. */
  function LowerChar(c: char): char
  {
    if IsUpper(c) then (c as int + 32) as char else c
  }

  /** No upper-case ASCII letter occurs in s. */
  predicate IsLowerCase(s: string) { forall i :: 0 <= i < |s| ==> !IsUpper(s[i]) }

  /** `s.toLowerCase()`: every letter lowered, everything else kept, in place. */
  function Lower(s: string): (r: string)
    ensures |r| == |s| && IsLowerCase(r)
    ensures forall i :: 0 <= i < |s| && IsUpper(s[i]) ==> r[i] == LowerChar(s[i])
    ensures forall i :: 0 <= i < |s| && !IsUpper(s[i]) ==> r[i] == s[i]
  {
    if s == [] then [] else [LowerChar(s[0])] + Lower(s[1..])
  }

  /** Lower-casing twice is lower-casing once. */
  lemma LowerIdempotent(s: string)
    ensures Lower(Lower(s)) == Lower(s)
  {
    var r := Lower(s);
    assert Lower(r) == r by { LowerOfLowerCase(r); }
  }

  lemma {:induction false} LowerOfLowerCase(s: string)
    requires IsLowerCase(s)
    ensures Lower(s) == s
  {
    if s != [] {
      LowerOfLowerCase(s[1..]);
    }
  }

  /** White space as `String.prototype.trim` strips it. */
  predicate IsWhitespace(c: char)
  {
    c == ' ' || c == '\t' || c == '\n' || c == '\r' || c == '\U{000B}' || c == '\U{000C}'
    || c == '\U{00A0}' || c == '\U{1680}' || ('\U{2000}' <= c <= '\U{200A}')
    || c == '\U{2028}' || c == '\U{2029}' || c == '\U{202F}' || c == '\U{205F}'
    || c == '\U{3000}' || c == '\U{FEFF}'
  }

  predicate AllWhitespace(s: string) { forall i :: 0 <= i < |s| ==> IsWhitespace(s[i]) }

  /** `s.trimStart()`: the suffix left after dropping the leading white space. */
  function TrimStart(s: string): (r: string)
    ensures |r| <= |s| && r == s[|s| - |r|..]
    ensures AllWhitespace(s[..|s| - |r|])
    ensures r == [] || !IsWhitespace(r[0])
  {
    if s != [] && IsWhitespace(s[0]) then TrimStart(s[1..]) else s
  }

  /** `s.trimEnd()`: the prefix left after dropping the trailing white space. */
  function TrimEnd(s: string): (r: string)
    ensures |r| <= |s| && r == s[..|r|]
    ensures AllWhitespace(s[|r|..])
    ensures r == [] || !IsWhitespace(r[|r| - 1])
  {
    if s != [] && IsWhitespace(s[|s| - 1]) then TrimEnd(s[..|s| - 1]) else s
  }

  /**
   * `s.trim()`: the stretch of s between its leading and its trailing white
   * space; it is empty exactly when s is all white space.
   */
  function Trim(s: string): (r: string)
    ensures |r| <= |s|
    ensures exists a, b :: WhitespaceAround(s, a, b) && r == s[a..b]
    ensures r == [] <==> AllWhitespace(s)
    ensures r != [] ==> !IsWhitespace(r[0]) && !IsWhitespace(r[|r| - 1])
  {
    var t := TrimStart(s);
    var r := TrimEnd(t);
    TrimmedStretch(s, t, r);
    r
  }

  /** Everything of s before position a and from position b on is white space. */
  predicate WhitespaceAround(s: string, a: int, b: int)
  {
    0 <= a <= b <= |s| && AllWhitespace(s[..a]) && AllWhitespace(s[b..])
  }

  /**
   * A prefix r of a suffix t of s, with white space before t and after r,
   * is a stretch of s with white space around it.
   */
  lemma TrimmedStretch(s: string, t: string, r: string)
    requires |t| <= |s| && t == s[|s| - |t|..] && AllWhitespace(s[..|s| - |t|])
    requires |r| <= |t| && r == t[..|r|] && AllWhitespace(t[|r|..])
    ensures exists a, b :: WhitespaceAround(s, a, b) && r == s[a..b]
    ensures r == [] ==> AllWhitespace(s)
  {
    var a := |s| - |t|;
    assert s[a + |r|..] == t[|r|..];
    assert WhitespaceAround(s, a, a + |r|) && r == s[a..a + |r|];
    if r == [] {
      assert t[0..] == t;
      WhitespaceConcat(s[..a], t);
      assert s[..a] + t == s;
    }
  }

  lemma WhitespaceConcat(a: string, b: string)
    requires AllWhitespace(a) && AllWhitespace(b)
    ensures AllWhitespace(a + b)
  {}

  /** pattern occurs in text starting at some position. */
  ghost predicate IsInfix(pattern: string, text: string)
  {
    exists i :: 0 <= i <= |text| && IsPrefix(pattern, text[i..])
  }

  predicate IsPrefix(pattern: string, text: string)
  {
    |pattern| <= |text| && text[..|pattern|] == pattern
  }

  /** `text.includes(pattern)`. */
  function Includes(text: string, pattern: string): (b: bool)
    ensures b <==> IsInfix(pattern, text)
  {
    if IsPrefix(pattern, text) then
      assert text[0..] == text;
      true
    else if text == [] then
      false
    else
      var b := Includes(text[1..], pattern);
      assert b ==> IsInfix(pattern, text) by {
        if b {
          var i :| 0 <= i <= |text[1..]| && IsPrefix(pattern, text[1..][i..]);
          assert text[1..][i..] == text[i + 1..];
        }
      }
      assert IsInfix(pattern, text) ==> b by {
        if IsInfix(pattern, text) {
          var i :| 0 <= i <= |text| && IsPrefix(pattern, text[i..]);
          assert i != 0;
          assert text[1..][i - 1..] == text[i..];
        }
      }
      b
  }

  /** The empty pattern occurs in every text, so `!q || t.includes(q)` is `t.includes(q)`. */
  lemma EmptyIncluded(text: string)
    ensures Includes(text, "")
  {
    assert IsPrefix("", text[0..]);
  }

  /** An occurrence of an occurrence is an occurrence. */
  lemma IncludesTransitive(text: string, middle: string, pattern: string)
    requires Includes(text, middle) && Includes(middle, pattern)
    ensures Includes(text, pattern)
  {
    var i :| 0 <= i <= |text| && IsPrefix(middle, text[i..]);
    var j :| 0 <= j <= |middle| && IsPrefix(pattern, middle[j..]);
    forall k | 0 <= k < |pattern|
      ensures text[i + j + k] == pattern[k]
    {
      assert pattern[k] == middle[j..][..|pattern|][k] == middle[j + k];
      assert middle[j + k] == text[i..][..|middle|][j + k];
    }
    assert text[i + j..][..|pattern|] == pattern;
    assert IsPrefix(pattern, text[i + j..]);
  }

  /** A text includes every piece of itself. */
  lemma IncludesSlice(text: string, i: nat, j: nat)
    requires i <= j <= |text|
    ensures Includes(text, text[i..j])
  {
    assert IsPrefix(text[i..j], text[i..]);
  }
}

=== FILE: pagination_console_test.dfy ===
/**
 * The arithmetic the pagination console guide demonstrates: rounding page
 * counts up, the page formula, slicing one page out of a list of posts, and
 * the interactive pagination calculator.
 */
module ConsoleTest {
  import opened JsNumber
  import opened JsArray
  import Paginator

  /** The posts per page of the guide's complete example. */
  const PostsPerPage: nat := 8

  /** The half-open index range [startIndex, endIndex) of one page. */
  datatype PageRange = PageRange(startIndex: int, endIndex: int)

  predicate InRange(r: PageRange, i: int)
  {
    r.startIndex <= i < r.endIndex
  }

  /** `calculatePageRange(pageNumber, itemsPerPage)`: a page is exactly itemsPerPage indices wide. */
  function CalculatePageRange(pageNumber: int, itemsPerPage: int): (r: PageRange)
    ensures r.endIndex - r.startIndex == itemsPerPage
  {
    var startIndex := (pageNumber - 1) * itemsPerPage;
    PageRange(startIndex, startIndex + itemsPerPage)
  }

  /** Pages 1, 2 and 3 of eight cover indices 0-7, 8-15 and 16-23. */
  lemma PageRangeExamples()
    ensures CalculatePageRange(1, 8) == PageRange(0, 8)
    ensures CalculatePageRange(2, 8) == PageRange(8, 16)
    ensures CalculatePageRange(3, 8) == PageRange(16, 24)
  {}

  /** Each page ends exactly where the next one starts. */
  lemma PageRangesContiguous(pageNumber: int, itemsPerPage: int)
    ensures CalculatePageRange(pageNumber, itemsPerPage).endIndex
         == CalculatePageRange(pageNumber + 1, itemsPerPage).startIndex
  {
    assert (pageNumber - 1) * itemsPerPage + itemsPerPage == pageNumber * itemsPerPage;
  }

  /** Index i lies on page p exactly when p is i / n + 1: the pages split the indices without overlap or gap. */
  lemma PageOfIndex(i: nat, itemsPerPage: nat, pageNumber: int)
    requires itemsPerPage > 0
    ensures InRange(CalculatePageRange(pageNumber, itemsPerPage), i) <==> pageNumber == i / itemsPerPage + 1
  {
    var n := itemsPerPage;
    var q := i / n;
    var r := CalculatePageRange(pageNumber, n);
    assert i == q * n + i % n;
    assert r.startIndex == (pageNumber - 1) * n;
    assert r.endIndex == pageNumber * n by {
      PageRangesContiguous(pageNumber - 1, n);
    }
    if pageNumber - 1 < q {
      MulMonotone(pageNumber, q, n);
      assert !InRange(r, i);
    } else if pageNumber - 1 > q {
      MulMonotone(q + 1, pageNumber - 1, n);
      assert !InRange(r, i);
    } else {
      assert pageNumber * n == q * n + n;
    }
  }

  /**
   * `getPostsForPage(pageNum)` over a list of posts: `posts.slice(start, start + 8)`.
   * From page 1 on, post k of the result is post (pageNum - 1) * 8 + k of the list,
   * and the page holds eight posts or whatever is left.
   */
  function GetPostsForPage<T>(posts: seq<T>, pageNum: int): (r: seq<T>)
    ensures |r| <= PostsPerPage
    ensures pageNum >= 1 ==>
      && |r| == Max(0, Min(PostsPerPage, |posts| - (pageNum - 1) * PostsPerPage))
      && forall k :: 0 <= k < |r| ==> r[k] == posts[(pageNum - 1) * PostsPerPage + k]
  {
    var start := (pageNum - 1) * PostsPerPage;
    var end := start + PostsPerPage;
    if pageNum >= 1 then
      SliceWindow(posts, start, end);
      Slice(posts, start, end)
    else
      Slice(posts, start, end)
  }

  /**
   * Page 0 is empty, and a page before it counts back from the end of the
   * list, as `slice` does with negative arguments.
   */
  lemma GetPostsBeforeFirstPage<T>(posts: seq<T>, pageNum: int)
    requires pageNum <= 0
    ensures pageNum == 0 ==> GetPostsForPage(posts, pageNum) == []
    ensures pageNum < 0 && (1 - pageNum) * PostsPerPage <= |posts| ==>
      var from := |posts| + (pageNum - 1) * PostsPerPage;
      GetPostsForPage(posts, pageNum) == posts[from..from + PostsPerPage]
  {}

  /** Pages 1 to k of the posts, one after another. */
  function FirstPages<T>(posts: seq<T>, k: nat): seq<T>
  {
    if k == 0 then [] else FirstPages(posts, k - 1) + GetPostsForPage(posts, k)
  }

  /** Pages 1 to k together are the first k * 8 posts. */
  lemma {:induction false} FirstPagesArePrefix<T>(posts: seq<T>, k: nat)
    ensures FirstPages(posts, k) == posts[..Min(k * PostsPerPage, |posts|)]
  {
    if k > 0 {
      FirstPagesArePrefix(posts, k - 1);
      var a := Min((k - 1) * PostsPerPage, |posts|);
      var b := Min(k * PostsPerPage, |posts|);
      SliceWindow(posts, (k - 1) * PostsPerPage, k * PostsPerPage);
      assert GetPostsForPage(posts, k) == posts[a..b];
      assert posts[..a] + posts[a..b] == posts[..b];
    }
  }

  /** Pages 1 to ceil(n / 8) hold every post exactly once, in order. */
  lemma PagesCoverAll<T>(posts: seq<T>)
    ensures FirstPages(posts, CeilDiv(|posts|, PostsPerPage)) == posts
  {
    FirstPagesArePrefix(posts, CeilDiv(|posts|, PostsPerPage));
    assert posts[..|posts|] == posts;
  }

  /** Math.ceil rounds up: 22 posts need 3 pages, 16 need 2, 7 need 1. */
  lemma PageCountExamples()
    ensures CeilDiv(22, PostsPerPage) == 3
    ensures CeilDiv(16, PostsPerPage) == 2
    ensures CeilDiv(7, PostsPerPage) == 1
  {
    CeilDivExact(22, PostsPerPage, 3);
    CeilDivExact(16, PostsPerPage, 2);
    CeilDivExact(7, PostsPerPage, 1);
  }

  /** 22 posts: three pages holding posts 0-7, 8-15 and 16-21, the last one six posts. */
  lemma TwentyTwoPosts<T>(blogPosts: seq<T>)
    requires |blogPosts| == 22
    ensures CeilDiv(|blogPosts|, PostsPerPage) == 3
    ensures GetPostsForPage(blogPosts, 1) == blogPosts[0..8]
    ensures GetPostsForPage(blogPosts, 2) == blogPosts[8..16]
    ensures GetPostsForPage(blogPosts, 3) == blogPosts[16..22]
    ensures |GetPostsForPage(blogPosts, 3)| == 6
  {
    PageCountExamples();
  }

  /** The object `paginationCalculator` returns. */
  datatype Calculation = Calculation(totalPages: int, startIndex: int, endIndex: int, itemsOnThisPage: int)

  /**
   * `paginationCalculator(totalItems, itemsPerPage, currentPage)`: the page
   * count, and the index range of the current page cut off at the last item.
   */
  function PaginationCalculator(totalItems: nat, itemsPerPage: nat, currentPage: int): (r: Calculation)
    requires itemsPerPage > 0
    ensures r.totalPages * itemsPerPage >= totalItems
    ensures r.endIndex <= totalItems && r.itemsOnThisPage <= itemsPerPage
  {
    var totalPages := CeilDiv(totalItems, itemsPerPage);
    var startIndex := (currentPage - 1) * itemsPerPage;
    var endIndex := Min(startIndex + itemsPerPage, totalItems);
    Calculation(totalPages, startIndex, endIndex, endIndex - startIndex)
  }

  /**
   * On pages 1 to totalPages the current page holds between one and
   * itemsPerPage items, exactly itemsPerPage on every page but the last, and
   * the last holds the remainder. A page past the end reports no items (a
   * count of zero or below).
   */
  lemma CalculatorItemsOnPage(totalItems: nat, itemsPerPage: nat, currentPage: int)
    requires itemsPerPage > 0 && currentPage >= 1
    ensures var r := PaginationCalculator(totalItems, itemsPerPage, currentPage);
      && (currentPage <= r.totalPages ==> 1 <= r.itemsOnThisPage <= itemsPerPage)
      && (currentPage < r.totalPages ==> r.itemsOnThisPage == itemsPerPage)
      && (currentPage == r.totalPages ==> r.itemsOnThisPage == totalItems - (r.totalPages - 1) * itemsPerPage)
      && (currentPage > r.totalPages ==> r.itemsOnThisPage <= 0)
  {
    var r := PaginationCalculator(totalItems, itemsPerPage, currentPage);
    var n := itemsPerPage;
    var t := r.totalPages;
    assert (t - 1) * n < totalItems by {
      assert t * n < totalItems + n;
      assert (t - 1) * n == t * n - n;
    }
    if currentPage <= t {
      MulMonotone(currentPage - 1, t - 1, n);
    }
    if currentPage < t {
      MulMonotone(currentPage, t - 1, n);
      assert currentPage * n == (currentPage - 1) * n + n;
    }
    if currentPage > t {
      MulMonotone(t, currentPage - 1, n);
    }
  }

  /** On pages from 1 on, the calculator's item count is the length of the page getPostsForPage cuts out. */
  lemma CalculatorMatchesSlice<T>(posts: seq<T>, pageNum: int)
    requires pageNum >= 1
    ensures |GetPostsForPage(posts, pageNum)| == Max(0, PaginationCalculator(|posts|, PostsPerPage, pageNum).itemsOnThisPage)
  {}

  /**
   * With more than one page, the posts the blog's pagination widget displays
   * on page c are the ones getPostsForPage returns for page c.
   */
  lemma WidgetShowsPostsForPage(filtered: seq<nat>, c: int, totalPages: int)
    requires totalPages > 1
    ensures Paginator.PageView(filtered, c, totalPages) == GetPostsForPage(filtered, c)
  {}

  /**
   * The practice answers: 50 posts at 12 per page need 5 pages; page 3 at 10
   * per page starts at index 20; page 5 at 15 per page shows posts 60 to 74.
   * The calculator's example call on 22 posts gives page 2 as items 8 to 15.
   */
  lemma WorkedAnswers()
    ensures CeilDiv(50, 12) == 5
    ensures CalculatePageRange(3, 10).startIndex == 20
    ensures CalculatePageRange(5, 15) == PageRange(60, 75)
    ensures PaginationCalculator(22, 8, 2) == Calculation(3, 8, 16, 8)
    ensures PaginationCalculator(50, 12, 3) == Calculation(5, 24, 36, 12)
    ensures PaginationCalculator(100, 20, 5) == Calculation(5, 80, 100, 20)
  {
    CeilDivExact(50, 12, 5);
    CeilDivExact(22, 8, 3);
    CeilDivExact(100, 20, 5);
  }
}

=== FILE: simple_pagination_example.dfy ===
/**
 * The teaching version of the blog pagination: a page counter over all posts
 * with a guarded `goToPageSafe`, infinite-scroll loading, and a separate
 * `PaginationState` object that pages through the results of a text search.
 */
module PaginationGuide {
  import opened JsNumber
  import opened JsString
  import opened JsArray
  import opened Dom
  import opened ConsoleTest

  /**
   * `calculateTotalPages()` for a list of postCount posts: no pages for no
   * posts, otherwise the least number of eight-post pages that holds them.
   */
  function TotalPages(postCount: nat): (t: nat)
    ensures t == 0 <==> postCount == 0
    ensures postCount <= t * PostsPerPage && (t == 0 || (t - 1) * PostsPerPage < postCount)
  {
    if postCount == 0 then 0 else CeilDiv(postCount, PostsPerPage)
  }

  /** The guard for an empty list is redundant: `Math.ceil(0 / 8)` is already 0. */
  lemma TotalPagesIsCeiling(postCount: nat)
    ensures TotalPages(postCount) == CeilDiv(postCount, PostsPerPage)
  {
    if postCount == 0 {
      CeilDivExact(0, PostsPerPage, 0);
    }
  }

  /** Post i is shown on page p: it lies in [(p - 1) * 8, p * 8). */
  predicate OnPage(i: int, p: int)
  {
    InRange(CalculatePageRange(p, PostsPerPage), i)
  }

  /** 22 posts make pages 1, 2 and 3 of posts 0-7, 8-15 and 16-21, and every post is on exactly one of them. */
  lemma TwentyTwoPostsLayout(i: nat, p: int)
    requires i < 22
    ensures TotalPages(22) == 3
    ensures OnPage(i, 1) <==> i <= 7
    ensures OnPage(i, 2) <==> 8 <= i <= 15
    ensures OnPage(i, 3) <==> 16 <= i <= 21
    ensures OnPage(i, p) <==> p == i / PostsPerPage + 1
  {
    CeilDivExact(22, PostsPerPage, 3);
    PageOfIndex(i, PostsPerPage, p);
  }

  /**
   * The argument handed to goToPageSafe: a value whose `typeof` is not
   * "number", the number NaN, or a whole number.
   */
  datatype PageArg = NonNumber | NaN | Number(value: int)

  /** How a call ends: with a returned boolean, or with a TypeError thrown. */
  datatype Completion = Returned(value: bool) | ThrewTypeError

  /**
   * The clamping of goToPageSafe: below 1 becomes 1, then above totalPages
   * becomes totalPages. With no pages at all the result is 0.
   */
  function ClampPage(n: int, totalPages: nat): (p: int)
    ensures totalPages >= 1 ==> 1 <= p <= totalPages
    ensures 1 <= n <= totalPages ==> p == n
    ensures n < 1 && totalPages >= 1 ==> p == 1
    ensures n > totalPages ==> p == totalPages
    ensures totalPages == 0 ==> p == 0
  {
    var p := if n < 1 then 1 else n;
    if p > totalPages then totalPages else p
  }

  /** Clamping a clamped page changes nothing. */
  lemma ClampPageIdempotent(n: int, totalPages: nat)
    ensures ClampPage(ClampPage(n, totalPages), totalPages) == ClampPage(n, totalPages)
  {}

  /** A page number as the untyped script holds it: a number, or NaN. */
  datatype PageValue = PageNumber(n: int) | NaNPage

  /** How a call of goToPageSafe as written ends: its completion, the new `currentPage` and the posts' display flags. */
  datatype AsWrittenOutcome = AsWrittenOutcome(completion: Completion, currentPage: PageValue, display: seq<bool>)

  /**
   * The display flags showPage(page) leaves on n posts when it completes:
   * every post hidden, then the page's posts shown. For a NaN page the
   * loop's test `i < endIndex` is false at once, so every post stays hidden.
   */
  function ShownPage(page: PageValue, n: nat): (r: seq<bool>)
    ensures |r| == n
    ensures forall i :: 0 <= i < n ==> (r[i] <==> page.PageNumber? && OnPage(i, page.n))
  {
    seq(n, i => page.PageNumber? && OnPage(i, page.n))
  }

  /**
   * goToPageSafe as written, over the value of `currentPage` and the posts'
   * display flags. Only a non-number is rejected. A number is clamped; the
   * current page is kept as it is, any other page becomes current and is
   * shown, and with no posts the clamped page 0 makes showPage throw. NaN
   * passes the `typeof` test, fails both clamping comparisons and differs
   * from every `currentPage`: it is stored, and showing it hides every post.
   */
  function GoToPageSafeAsWritten(arg: PageArg, currentPage: PageValue, display: seq<bool>): (r: AsWrittenOutcome)
    ensures |r.display| == |display|
    ensures arg.NonNumber? ==> r == AsWrittenOutcome(Returned(false), currentPage, display)
    ensures arg.NaN? ==>
      && r.completion == Returned(true) && r.currentPage == NaNPage
      && forall i :: 0 <= i < |display| ==> !r.display[i]
    ensures arg.Number? ==>
      var p := ClampPage(arg.value, TotalPages(|display|));
      && r.currentPage == PageNumber(p)
      && (PageNumber(p) == currentPage ==> r.completion == Returned(true) && r.display == display)
      && (PageNumber(p) != currentPage ==>
            && r.completion == (if p >= 1 then Returned(true) else ThrewTypeError)
            && forall i :: 0 <= i < |display| ==> (r.display[i] <==> p >= 1 && OnPage(i, p)))
  {
    match arg
    case NonNumber => AsWrittenOutcome(Returned(false), currentPage, display)
    case NaN => AsWrittenOutcome(Returned(true), NaNPage, ShownPage(NaNPage, |display|))
    case Number(n) =>
      var p := ClampPage(n, TotalPages(|display|));
      if currentPage == PageNumber(p) then AsWrittenOutcome(Returned(true), currentPage, display)
      else if p < 1 then AsWrittenOutcome(ThrewTypeError, PageNumber(p), seq(|display|, i => false))
      else AsWrittenOutcome(Returned(true), PageNumber(p), ShownPage(PageNumber(p), |display|))
  }

  /**
   * The discrepancy: with 24 posts, on page 1 of 3 with page 1 displayed,
   * goToPageSafe(NaN) reports success, leaves `currentPage` NaN, which is no
   * page at all, and hides every post.
   */
  lemma GoToPageSafeAcceptsNaN(display: seq<bool>)
    requires |display| == 24
    requires forall i :: 0 <= i < 24 ==> (display[i] <==> OnPage(i, 1))
    ensures TotalPages(|display|) == 3
    ensures GoToPageSafeAsWritten(NaN, PageNumber(1), display).completion == Returned(true)
    ensures !GoToPageSafeAsWritten(NaN, PageNumber(1), display).currentPage.PageNumber?
    ensures GoToPageSafeAsWritten(NaN, PageNumber(1), display).display != display
  {
    CeilDivExact(24, PostsPerPage, 3);
    assert display[0];
    assert !GoToPageSafeAsWritten(NaN, PageNumber(1), display).display[0];
  }

  /**
   * The module-level state of the guide: the posts `findAllPosts` found, the
   * current page, and the two flags of infinite scrolling.
   */
  class Guide {
    const doc: BlogDocument
    var currentPage: int
    var isLoading: bool
    var hasMorePages: bool

    /** The page counter never goes negative: it only takes clamped pages and successors. */
    ghost predicate Valid()
      reads this
    {
      doc.Valid() && currentPage >= 0
    }

    /**
     * The script's initial values, page 1, not loading, more pages to come,
     * after its DOMContentLoaded handler has shown page 1.
     */
    constructor (doc: BlogDocument)
      requires doc.Valid()
      modifies doc.display
      ensures Valid() && this.doc == doc
      ensures currentPage == 1 && !isLoading && hasMorePages
      ensures forall i :: 0 <= i < doc.display.Length ==> (doc.display[i] <==> OnPage(i, 1))
    {
      this.doc := doc;
      currentPage := 1;
      isLoading := false;
      hasMorePages := true;
      new;
      var ok := ShowPage(1);
    }

    /**
     * showPage(pageNumber): every post is hidden, then the posts of the page
     * are shown. From page 1 on that is exactly the posts of the page; for a
     * page below 1 the loop reads a post at a negative index, which is
     * undefined, and the script stops with a TypeError (ok is false) after
     * hiding everything.
     */
    method ShowPage(pageNumber: int) returns (ok: bool)
      requires Valid()
      modifies doc.display
      ensures ok <==> pageNumber >= 1
      ensures forall i :: 0 <= i < doc.display.Length ==> (doc.display[i] <==> ok && OnPage(i, pageNumber))
    {
      var display := doc.display;
      var startIndex := (pageNumber - 1) * PostsPerPage;
      var endIndex := startIndex + PostsPerPage;
      for k := 0 to display.Length
        invariant forall j :: 0 <= j < k ==> !display[j]
      {
        display[k] := false;
      }
      var i := startIndex;
      while i < endIndex && i < display.Length
        invariant startIndex <= i <= endIndex
        invariant i == startIndex || 0 <= startIndex
        invariant forall j :: 0 <= j < display.Length ==> (display[j] <==> startIndex <= j < i)
      {
        if i < 0 {
          return false;
        }
        display[i] := true;
        i := i + 1;
      }
      ok := true;
    }

    /**
     * goToPageSafe(pageNumber), with NaN rejected like any other non-number.
     * A number is clamped into [1, totalPages]; staying on the current page
     * changes nothing, otherwise the page becomes current and is shown. With
     * no posts the clamp yields page 0, and showing it throws.
     */
    method GoToPageSafe(arg: PageArg) returns (c: Completion)
      requires Valid()
      modifies this`currentPage, doc.display
      ensures Valid()
      ensures !arg.Number? ==> c == Returned(false) && currentPage == old(currentPage) && unchanged(doc.display)
      ensures arg.Number? ==>
        var p := ClampPage(arg.value, TotalPages(doc.display.Length));
        && currentPage == p
        && (p == old(currentPage) ==> c == Returned(true) && unchanged(doc.display))
        && (p != old(currentPage) ==>
              && c == (if p >= 1 then Returned(true) else ThrewTypeError)
              && forall i :: 0 <= i < doc.display.Length ==> (doc.display[i] <==> p >= 1 && OnPage(i, p)))
    {
      var totalPages := TotalPages(doc.display.Length);
      if !arg.Number? {
        return Returned(false);
      }
      var pageNumber := arg.value;
      if pageNumber < 1 {
        pageNumber := 1;
      }
      if pageNumber > totalPages {
        pageNumber := totalPages;
      }
      if pageNumber == currentPage {
        return Returned(true);
      }
      currentPage := pageNumber;
      var ok := ShowPage(currentPage);
      if !ok {
        return ThrewTypeError;
      }
      c := Returned(true);
    }

    /**
     * loadNextPage, with its timer callback run at once: on or past the last
     * page it only records that there are no more pages; otherwise it moves
     * to the next page and shows that page's posts as well, hiding nothing.
     * If the first pages were showing, the first pages up to the new one are.
     */
    method LoadNextPage()
      requires Valid()
      modifies this`currentPage, this`isLoading, this`hasMorePages, doc.display
      ensures Valid()
      ensures old(currentPage) >= TotalPages(doc.display.Length) ==>
        && !hasMorePages && currentPage == old(currentPage) && isLoading == old(isLoading)
        && unchanged(doc.display)
      ensures old(currentPage) < TotalPages(doc.display.Length) ==>
        && currentPage == old(currentPage) + 1 && !isLoading && hasMorePages == old(hasMorePages)
        && forall i :: 0 <= i < doc.display.Length ==> (doc.display[i] <==> old(doc.display[i]) || OnPage(i, currentPage))
      ensures (&& old(currentPage) < TotalPages(doc.display.Length)
               && forall i :: 0 <= i < doc.display.Length ==> (old(doc.display[i]) <==> i < old(currentPage) * PostsPerPage))
          ==> forall i :: 0 <= i < doc.display.Length ==> (doc.display[i] <==> i < currentPage * PostsPerPage)
    {
      var totalPages := TotalPages(doc.display.Length);
      if currentPage >= totalPages {
        hasMorePages := false;
        return;
      }
      isLoading := true;
      currentPage := currentPage + 1;
      var display := doc.display;
      var startIndex := (currentPage - 1) * PostsPerPage;
      var endIndex := startIndex + PostsPerPage;
      var i := startIndex;
      while i < endIndex && i < display.Length
        invariant startIndex <= i <= endIndex
        invariant forall j :: 0 <= j < display.Length ==> (display[j] <==> old(display[j]) || startIndex <= j < i)
        modifies display
      {
        display[i] := true;
        i := i + 1;
      }
      isLoading := false;
    }
  }

  /**
   * The results of searchAndPaginate: every item for a query that is empty
   * or white space, otherwise the items whose lower-cased text contains the
   * lower-cased query (which is not trimmed).
   */
  function SearchResults(texts: seq<string>, items: seq<nat>, query: string): (r: seq<nat>)
    ensures |r| <= |items| && forall p :: p in r ==> p in items
  {
    if Trim(query) == "" then items
    else
      var q := Lower(query);
      Filter(items, (p: nat) => p < |texts| && Includes(Lower(texts[p]), q))
  }

  /**
   * A blank query keeps every item; any other query keeps, in their order,
   * exactly the items whose text contains it, ignoring case.
   */
  lemma SearchResultsMeaning(texts: seq<string>, items: seq<nat>, query: string)
    requires forall p :: p in items ==> p < |texts|
    ensures AllWhitespace(query) ==> SearchResults(texts, items, query) == items
    ensures !AllWhitespace(query) ==>
      && IsSubsequence(SearchResults(texts, items, query), items)
      && forall p :: p in SearchResults(texts, items, query) <==> p in items && Includes(Lower(texts[p]), Lower(query))
  {
    if !AllWhitespace(query) {
      FilterIsSubsequence(items, (p: nat) => p < |texts| && Includes(Lower(texts[p]), Lower(query)));
    }
  }

  /**
   * Where a page's loop stops, the results it went over are the page
   * getPostsForPage cuts out of them.
   */
  lemma LoopPage(filtered: seq<nat>, pageNumber: int, i: int)
    requires pageNumber >= 1
    requires (pageNumber - 1) * PostsPerPage <= i <= pageNumber * PostsPerPage
    requires i == pageNumber * PostsPerPage || i >= |filtered|
    requires (pageNumber - 1) * PostsPerPage < i ==> i <= |filtered|
    ensures GetPostsForPage(filtered, pageNumber)
         == if (pageNumber - 1) * PostsPerPage < i then filtered[(pageNumber - 1) * PostsPerPage..i] else []
  {}

  /** The object returned by getInfo. */
  datatype PageInfo = PageInfo(
    currentPage: int, totalPages: nat, totalItems: nat,
    startIndex: int, endIndex: int, itemsOnPage: int)

  /**
   * The `PaginationState` object: all posts, the current search's results,
   * the page within them and the last query. Items are post positions in
   * the document.
   */
  class PaginationState {
    const doc: BlogDocument
    const itemsPerPage: nat := 8
    var currentPage: int
    const allItems: seq<nat>
    var filteredItems: seq<nat>
    var searchQuery: string
    var sortOrder: string

    /** The items are posts of the document, and all posts are among the items. */
    ghost predicate Valid()
      reads this
    {
      && doc.Valid()
      && allItems == Range(doc.display.Length)
      && forall p :: p in filteredItems ==> p < doc.display.Length
    }

    /** The state after the page has loaded: every post is an item and a result, on page 1. */
    constructor (doc: BlogDocument)
      requires doc.Valid()
      ensures Valid() && this.doc == doc
      ensures allItems == filteredItems == Range(doc.display.Length)
      ensures currentPage == 1 && searchQuery == "" && sortOrder == "default"
    {
      this.doc := doc;
      currentPage := 1;
      allItems := Range(doc.display.Length);
      filteredItems := Range(doc.display.Length);
      searchQuery := "";
      sortOrder := "default";
    }

    /** reset(): back to page 1 with every item a result again. */
    method Reset()
      requires Valid()
      modifies this`currentPage, this`filteredItems
      ensures Valid()
      ensures currentPage == 1 && filteredItems == allItems
    {
      currentPage := 1;
      filteredItems := allItems;
    }

    /**
     * getInfo(): the page count of the results and the current page's index
     * range, cut off at the last result. From page 1 to the last page the
     * range is non-empty and at most eight wide; past the last page the item
     * count turns negative.
     */
    function GetInfo(): (r: PageInfo)
      reads this
      ensures r.totalItems == |filteredItems| && r.endIndex <= r.totalItems
      ensures r.totalItems <= r.totalPages * itemsPerPage
      ensures 1 <= currentPage <= r.totalPages ==> 0 <= r.startIndex < r.endIndex && 1 <= r.itemsOnPage <= itemsPerPage
      ensures r.itemsOnPage < 0 <==> r.startIndex > r.totalItems
      ensures currentPage > r.totalPages ==> r.itemsOnPage <= 0
    {
      var totalPages := CeilDiv(|filteredItems|, itemsPerPage);
      var startIndex := (currentPage - 1) * itemsPerPage;
      var endIndex := Min(startIndex + itemsPerPage, |filteredItems|);
      if 1 <= currentPage then
        CalculatorItemsOnPage(|filteredItems|, itemsPerPage, currentPage);
        PageInfo(currentPage, totalPages, |filteredItems|, startIndex, endIndex, endIndex - startIndex)
      else
        PageInfo(currentPage, totalPages, |filteredItems|, startIndex, endIndex, endIndex - startIndex)
    }

    /** getInfo agrees with the console guide's paginationCalculator on the same numbers. */
    lemma GetInfoIsCalculator()
      ensures GetInfo().totalPages == PaginationCalculator(|filteredItems|, itemsPerPage, currentPage).totalPages
      ensures GetInfo().startIndex == PaginationCalculator(|filteredItems|, itemsPerPage, currentPage).startIndex
      ensures GetInfo().endIndex == PaginationCalculator(|filteredItems|, itemsPerPage, currentPage).endIndex
      ensures GetInfo().itemsOnPage == PaginationCalculator(|filteredItems|, itemsPerPage, currentPage).itemsOnThisPage
    {}

    /**
     * showFilteredPage(pageNumber): every post is hidden, then the results on
     * the page are shown: the page getPostsForPage cuts out of the results.
     * For a page below 1 the loop reads a result at a negative index and
     * throws a TypeError (ok is false) after hiding everything.
     */
    method ShowFilteredPage(pageNumber: int) returns (ok: bool)
      requires Valid()
      modifies doc.display
      ensures ok <==> pageNumber >= 1
      ensures ShowsExactly(doc.display[..], if ok then GetPostsForPage(filteredItems, pageNumber) else [])
    {
      var display := doc.display;
      for k := 0 to |allItems|
        invariant forall j :: 0 <= j < display.Length ==> (display[j] <==> old(display[j]) && j >= k)
      {
        display[allItems[k]] := false;
      }
      var startIndex := (pageNumber - 1) * itemsPerPage;
      var endIndex := startIndex + itemsPerPage;
      var i := startIndex;
      while i < endIndex && i < |filteredItems|
        invariant startIndex <= i <= endIndex
        invariant i == startIndex || 0 <= startIndex
        invariant startIndex < i ==> i <= |filteredItems|
        invariant forall j :: 0 <= j < display.Length ==>
          (display[j] <==> startIndex < i && j in filteredItems[startIndex..i])
        modifies display
      {
        if i < 0 {
          return false;
        }
        assert filteredItems[i] in filteredItems;
        display[filteredItems[i]] := true;
        assert filteredItems[startIndex..i + 1] == filteredItems[startIndex..i] + [filteredItems[i]];
        i := i + 1;
      }
      ok := true;
      LoopPage(filteredItems, pageNumber, i);
    }

    /**
     * searchAndPaginate(query): the results become SearchResults of the
     * query, the page goes back to 1, the query is recorded, and the first
     * eight results (all of them if fewer) are shown.
     */
    method SearchAndPaginate(query: string)
      requires Valid()
      modifies this`filteredItems, this`currentPage, this`searchQuery, doc.display
      ensures Valid()
      ensures filteredItems == SearchResults(doc.texts, allItems, query)
      ensures currentPage == 1 && searchQuery == query
      ensures ShowsExactly(doc.display[..], filteredItems[..Min(itemsPerPage, |filteredItems|)])
    {
      if Trim(query) == "" {
        filteredItems := allItems;
      } else {
        var q := Lower(query);
        var texts := doc.texts;
        filteredItems := Filter(allItems, (p: nat) => p < |texts| && Includes(Lower(texts[p]), q));
      }
      currentPage := 1;
      searchQuery := query;
      var info := GetInfo();
      var ok := ShowFilteredPage(1);
      assert GetPostsForPage(filteredItems, 1) == filteredItems[..Min(itemsPerPage, |filteredItems|)];
    }
  }
}
